=== FILE: README.md ===
# convmdblog in Dafny

A model of the document-conversion core of `convmdblog`. The program turns
markdown posts written in its "default" dialect into Jekyll posts. The
default dialect is a YAML front matter between `---` lines, followed by a
markdown body. The model follows one document through the converter:

- **FrontMatter**: locate the front matter with the pattern `.*---(?s)(.*?)---.*`, then derive the header and where the body starts.
- **Events** and **Paths**: rewrite every image reference in the body's event stream into the asset directory `/assets/img`.
- **Categories**: classify the free-form tags into one category through a fixed keyword table.
- **Dates**: build the `YYYY-MM-DD` prefix and the post file name `<date>-<stem>.md`.
- **JekyllMapper**: check the header, synthesise the five-key Jekyll header, and assemble the written text `---\n<yaml>---\n<body>`.
- **Cli**: parse a dialect name, dispatch on the (input, output) dialect pair, and run the batch loop.

Everything is pure functions over `seq<char>` and immutable datatypes.
Failures the program reports through `Result` or through a panic are
explicit error values here. Some code is foreign: the YAML deserialiser, the
YAML emitter, the markdown tokenizer and the markdown serialiser. These are
function parameters, bundled in `JekyllMapper.Foreign`. File-system effects
are returned as a trace (`Cli.Effect`) instead of being performed.

Files:

- `base.dfy`: `Option` and `Result`, plus ASCII `trim` and `to_lowercase`.
- `dates.dfy`: `{:04}` / `{:02}` padding, the date prefix and the post name.
- `front_matter.dfy`: the front-matter locator, its regex reference semantics, and the reader.
- `paths.dfy`: `file_name`, `join` and the `mapdir` rewrite.
- `events.dfy`: the event stream and the image rewrite.
- `categories.dfy`: the tag table and the classifier.
- `jekyll.dfy`: the per-document conversion.
- `cli.dfy`: dialect parsing, dispatch and the batch loop.

Three points of the program's behaviour that the model keeps:

- The batch loop in `main` applies `?` to each conversion, so the first document that fails ends the run, and the documents after it are not converted (`Cli.ConvertAll`).
- `map_default_to_jekyll` rewrites the body's images before it checks the header. A body with a bad image path therefore reports the rewrite failure even when the header is missing as well (`JekyllMapper.ConvertDocument`).
- In the locator, the opening `---` may sit anywhere on the first line holding a `---`. It need not be a line of its own. The closing `---` is the first `---` after it, wherever that is.

## Model

| member | source | states |
|---|---|---|
| Base.ToLower | src/mapper/jekyll.rs:219 | lower-casing keeps the length, turns each capital into the lower-case letter at the same place in the alphabet, and changes no other character |
| Base.Trim | src/mapper/jekyll.rs:219 | the result is the input with its leading and trailing white space cut: the slice right after the leading run, followed in the input by blank text only, and neither starting nor ending with white space; it is empty exactly when the input is all white space |
| Base.TrimIgnoresPadding | src/mapper/jekyll.rs:219 | white space added around a string is exactly what trimming removes |
| Base.Normalize | src/mapper/jekyll.rs:219 | the normal form has no capital letter and no white space at either end; it is empty exactly when the input is blank; it fits inside the input after the leading white space, and only white space follows it there |
| Base.NormalizeSpec | src/mapper/jekyll.rs:219 | the normal form is the input's text between its leading and trailing white space, each letter lower-cased |
| Base.NormalizeIdempotent | src/mapper/jekyll.rs:219 | trimming and lower-casing a normalised tag changes nothing |
| Base.NormalizeIgnoresPadding | src/mapper/jekyll.rs:219 | white space around a tag never changes its normal form |
| Base.NormalizeIgnoresCase | src/main.rs:30 | two strings that differ only in letter case have the same normal form |
| Dates.ZeroPad | src/mapper/jekyll.rs:149-154 | `{:0W}` of a non-negative value is digits that spell the value, exactly W of them when the value is shorter and no leading zero otherwise; of a negative value, a `-` followed by digits that spell its magnitude, padded the same way to W characters in all |
| Dates.PaddedRoundTrip | src/mapper/jekyll.rs:149-154 | a value below 10^W padded to W takes exactly W digits and reads back as itself |
| Dates.DatePrefix | src/mapper/jekyll.rs:149-154 | the prefix is at least ten characters; for a year in 0..9999 it is exactly ten, has dashes at positions 4 and 7, and parses back to the same date |
| Dates.OutputName | src/mapper/jekyll.rs:158-160 | for every date the post name is the date prefix, a dash, the verbatim stem and `.md`; for a valid date with a year in 0..9999 it is 14 characters longer than the stem and splits back into the date and the stem |
| FrontMatter.FindFrom | src/reader/default.rs:71 | returns the first `---` at or after the start index, and None only when there is none |
| FrontMatter.LastOpener | src/reader/default.rs:71 | returns the rightmost `---` in the range that has a later `---`, and None when no such `---` exists |
| FrontMatter.FetchYamlHead | src/reader/default.rs:67-82 | the capture is preceded by `---` and followed by `---`, contains no `---`, and is absent when the text has no `---` |
| FrontMatter.FetchYamlHeadIsRegexMatch | src/reader/default.rs:67-82 | the locator finds nothing exactly when the pattern cannot match; otherwise it returns the capture of the leftmost-first match (earliest start, longest `.*`, shortest lazy group) |
| FrontMatter.TagList | src/reader/default.rs:30-31 | a scalar `tags` becomes a one-element list; a list is kept in order, duplicates included |
| FrontMatter.ReadDocument | src/reader/default.rs:40-65 | no capture gives no header and body start 0; a capture that fails to deserialise is an error; otherwise the header is set and the body starts 3 past the capture end |
| FrontMatter.BodyFollowsCloser | src/reader/default.rs:47-52 | with a header, the body starts right after a closing `---`, at least six characters in, and the captured header text before that `---` holds no `---` |
| FrontMatter.NoDelimiterNoHeader | src/reader/default.rs:53-56 | a text without any `---` reads as no header, with the whole text as the body |
| Paths.FileName | src/mapper/mod.rs:22-23 | a found name is the last `/`-piece that is neither empty nor `.`, and is never `..`; there is no name exactly when every piece is empty or `.`, or when that last piece is `..` |
| Paths.SegmentsUnsplit | src/mapper/mod.rs:22-23 | splitting a path at `/` loses nothing: the pieces joined with `/` give the path back |
| Paths.ParentHasNoFileName | src/mapper/mod.rs:23 | a path ending in `/..` has no file name, so `mapdir` fails on it |
| Paths.EmptyHasNoFileName | src/mapper/mod.rs:23 | the empty path has no file name |
| Paths.Join | src/mapper/mod.rs:25 | an absolute name replaces the directory; onto an empty directory the name is returned unchanged; otherwise the result is the directory, one separator (added only when missing) and the name |
| Paths.FileNameOfJoin | src/mapper/mod.rs:25 | the file name of any directory joined with a plain file name (non-empty, no `/`, not `.` or `..`) is that name |
| Paths.MapDir | src/mapper/mod.rs:19-28 | it fails exactly when the source has no file name; otherwise the result is `imgdir`, a separator unless `imgdir` already ends in one, and the source's file name |
| Paths.MapDirIdempotent | src/mapper/mod.rs:19-28 | moving an already moved path changes nothing |
| Paths.MapDirExample | src/mapper/mod.rs:19-28 | `../images/foo.png` moves to `/assets/img/foo.png` |
| Events.FindAttr | src/mapper/mod.rs:54-55 | finds the first attribute whose name matches up to case, and reports none when no attribute matches |
| Events.MapEvents | src/mapper/mod.rs:52-77 | succeeds exactly when every event is rewritable, gives one output event per input event in order, and each output event is its input with only image destinations and `img` `src` values moved |
| Events.RewriteNode | src/mapper/mod.rs:54-60 | fails exactly on an `img[src]` whose `src` has no file name; otherwise an `img[src]` element gets only its `src` value moved, and every other node is unchanged |
| Events.MapTag | src/mapper/mod.rs:31-47 | fails exactly on an image whose destination has no file name; otherwise an image keeps its link type and title and gets the moved destination, and every other tag is unchanged |
| Events.MapEvent | src/mapper/mod.rs:52-77 | fails exactly on an unparseable fragment or an image path without a file name; otherwise Start and End tags go through the tag map, fragments through the node handler, and leaf events pass unchanged |
| Events.MapEventsIdempotent | src/mapper/mod.rs:52-77 | rewriting an already rewritten stream gives the same stream |
| Events.MapEventsAppend | src/mapper/mod.rs:52 | the map works event by event: the rewrite of a concatenation is the concatenation of the rewrites |
| Events.ImageEventsRewritten | src/mapper/mod.rs:31-75 | in an image's Start, alt text and End events, both tags get the moved URL and the alt text stays |
| Events.ImageExample | src/mapper/mod.rs:31-75 | `![alt](../images/foo.png "t")` becomes `![alt](/assets/img/foo.png "t")` |
| Events.HtmlImageMoved | src/mapper/mod.rs:53-60 | for an `imgdir` that is non-empty and does not end in `/`, a directory ending in `/` and a plain file name (non-empty, no `/`, not `.` or `..`), `<img src="dir/name" ...>` with `src` as its first attribute gets `src="<imgdir>/name"` with all other attributes kept |
| Categories.InsertAll | src/mapper/jekyll.rs:84-86 | inserting a keyword list maps each keyword to its category and keeps every other key |
| Categories.BuildTable | src/mapper/jekyll.rs:82-87 | a later insertion overwrites an earlier one: each keyword maps to the category of the last list that holds it |
| Categories.BuildTableKeys | src/mapper/jekyll.rs:82-87 | the table holds no key that is not a keyword of some list |
| Categories.GroupsDisjoint | src/mapper/jekyll.rs:42-80 | no keyword appears in two of the four lists |
| Categories.TagTableSpec | src/mapper/jekyll.rs:36-91 | a key is in the table exactly when it is in a keyword list, and it maps to that list's category |
| Categories.LookupIn | src/mapper/jekyll.rs:219-221 | a tag is found exactly when its trimmed, lower-cased form is a key of the table, and then it gets that key's category |
| Categories.LookupSpec | src/mapper/jekyll.rs:219-221 | looking up a tag gives the keyword-list category of its trimmed, lower-cased form |
| Categories.Fold | src/mapper/jekyll.rs:216-230 | once a category is kept, a success keeps exactly that one, and a success keeps nothing only when nothing was kept before; FoldSpec and FoldErrSpec give the rest |
| Categories.MapTagsToCats | src/mapper/jekyll.rs:215-233 | a success is one category, `Oth` or one that some tag's trimmed, lower-cased form names through the keyword lists; a conflict names two different categories |
| Categories.MapTagsToCatsIn | src/mapper/jekyll.rs:215-233 | a success is a one-element list holding `Oth` or a category some tag matched; a conflict names two different categories |
| Categories.FoldSpec | src/mapper/jekyll.rs:216-230 | the fold succeeds exactly when the kept category and the matched categories number at most one, and keeps that one |
| Categories.FoldErrSpec | src/mapper/jekyll.rs:222-225 | a conflict reports a newly matched category and the one already kept |
| Categories.ClassifySpec | src/mapper/jekyll.rs:215-233 | no match gives `[Oth]`; a single matched category `c` gives `[c]`; more than one matched category is a conflict between two of them |
| Categories.MapTagsToCatsSpec | src/mapper/jekyll.rs:215-233 | the same outcomes, stated against the keyword lists: `[Oth]`, `[c]`, or a conflict exactly when the tags name two different categories |
| Categories.UnmatchedTagIgnored | src/mapper/jekyll.rs:218-230 | inserting a tag that matches nothing anywhere in the list never changes the outcome |
| Categories.ClassifyOrderIndependent | src/mapper/jekyll.rs:218-230 | reordering the tags keeps success or failure, and a success's category |
| Categories.CatNameRoundTrip | src/mapper/jekyll.rs:195-198 | the header names are `algs`, `lang`, `os`, `net`, `oth`, and each parses back to its category |
| Categories.ClassifySingle | src/mapper/jekyll.rs:215-233 | a single tag classifies as its keyword list's category, or `Oth` |
| Categories.ClassifyPair | src/mapper/jekyll.rs:222-227 | two tags naming different categories conflict; agreeing or unmatched second tags keep the first tag's category |
| Categories.PaddedLinuxIsOS | src/mapper/jekyll.rs:219-221 | `Linux` with any surrounding white space, such as `" Linux "`, classifies as `OS` |
| Categories.UnknownTagExample | src/mapper/jekyll.rs:232 | `my-random-tag` classifies as `Oth` |
| Categories.AgreeingTagsExample | src/mapper/jekyll.rs:222-227 | `linux` with `shell` classifies as `OS` |
| Categories.ConflictingTagsExample | src/mapper/jekyll.rs:222-225 | `linux` with `algorithm` is a conflict |
| JekyllMapper.JekyllHeader | src/mapper/jekyll.rs:171-203 | the header has exactly the keys title, date, layout, mathjax, category, in that order, each holding the value it was given, and one lower-case name per category |
| JekyllMapper.Synthesize | src/mapper/jekyll.rs:138-203 | the checks run in order (missing header, then missing date, then missing title, then category conflict); a success is named `<date>-<stem>.md`, keeps the body, and has exactly the keys title, date, layout, mathjax, category |
| JekyllMapper.HeaderReadsBack | src/mapper/jekyll.rs:171-203 | the header holds the verbatim title, a date string, layout `post`, mathjax `true`, and one category name that parses back to the classified category; for a year in 0..9999 the date string parses back to the header date |
| JekyllMapper.PostText | src/mapper/jekyll.rs:208 | the written text is `---\n`, the emitted header, `---\n`, then the body |
| JekyllMapper.PostTextReadsBack | src/mapper/jekyll.rs:208 | when the emitted header has no `---` and ends its last line, the reader finds the header again and the body it reads is a line break followed by the converted body |
| JekyllMapper.ConvertDocument | src/mapper/jekyll.rs:131-213 | a read failure is reported first, then an image-rewrite failure, then the header check's failure (missing header, date or title, or a category conflict); a document that passes them all converts, and a success writes `PostText` of the emitted header and the rewritten body under `outdir` |
| JekyllMapper.NoFrontMatterReported | src/mapper/jekyll.rs:135-144 | a document with no `---` whose body rewrites cleanly is reported as missing its front matter |
| JekyllMapper.MissingDateReported | src/mapper/jekyll.rs:146-157 | a header without a date is reported as missing the date, whatever its title and tags |
| JekyllMapper.OutputPathSpec | src/mapper/jekyll.rs:158-160 | the post is written at `outdir` joined with `<date>-<stem>.md`; for a valid date with a year in 0..9999 that name splits back into the date and the stem |
| Cli.ParseMat | src/main.rs:26-36 | the result is `Default` exactly when the normal form is `default` or `d`, and `Jekyll` exactly when it is `jekyll` or `j`; anything else is the "No Mat matched" error |
| Cli.ParseMatIgnoresPadding | src/main.rs:30 | surrounding white space never changes the parse |
| Cli.ParseMatIgnoresCase | src/main.rs:30 | letter case never changes the parse |
| Cli.ParseMatAccepts | src/main.rs:30-34 | exactly the four spellings are accepted, after normalisation |
| Cli.ParseMatRoundTrip | src/main.rs:31-32 | each dialect's name and its one-letter alias parse back to that dialect |
| Cli.SelectMapper | src/main.rs:42-45 | a mapper is selected exactly for the pair (Default, Jekyll) |
| Cli.Run | src/main.rs:39-65 | an unsupported pair fails with no effects; otherwise the output directory is created first and the batch's writes follow |
| Cli.UnsupportedPairHasNoEffects | src/main.rs:42-47 | any pair other than (Default, Jekyll) creates no directory and writes no file |
| Cli.ConvertAll | src/main.rs:55-62 | the batch writes at most one file per document, and a success writes one for every document |
| Cli.ConvertAllSpec | src/main.rs:55-62 | the batch succeeds exactly when every document converts; it writes the converted documents in order; a failure has written exactly the documents before the first failing one, and reports that one |
| Cli.ConvertAllAppend | src/main.rs:55-62 | a batch over `a + b` is the batch over `a`, then, if that succeeded, the batch over `b` |

## Left out

- File-system I/O (`file_stem`, `read_to_string`, `fs::write`, `mkdirs`, the `println!` log line): documents arrive as (stem, text) pairs, and directory creation and writes are returned as a trace. Their I/O errors are not modelled.
- The directory walk (`syn_walk`, non-recursive, `.md` and `.markdown` only): the walk is not part of this model, and the documents are given as a sequence in walk order.
- The YAML deserialiser (`serde_yaml::from_str` with `OneOrMany` tags): it is the `deserialize` parameter. A header missing `tags` is whatever that parameter reports.
- The YAML emitter (`serde_yaml::to_string`): it is the `emit` parameter, taken to be total. Its error path is not modelled.
- `RelaDateTime` and chrono date parsing: these are not part of this model. A date is a (year, month, day) triple.
- pulldown-cmark tokenising and `push_md` serialisation: they are the `tokenize` and `serialize` parameters. `push_md`'s `unwrap` is taken never to fail.
- lol_html parsing of raw HTML: a fragment is an abstract list of elements with attributes, or unparseable. An unparseable fragment is reported as `UnrenderableMarkup` where the source panics on `unwrap`. Only start tags are modelled, not HTML text or serialisation.
- `aux::file_name` is not part of this model. `Paths.FileName` takes it to behave as `Path::file_name` on `/`-separated paths. Its failure, which the source `unwrap`s into a panic, is the `NoFileName` error.
- Platform path rules: paths are `/`-separated strings. Windows prefixes and `Path::components`' special cases beyond empty and `.` pieces are not modelled.
- Unicode `trim` and `to_lowercase`: only ASCII white space and ASCII letters are modelled.
- Byte offsets: the locator works on character indices. These agree with the source's byte offsets on ASCII text only.
- The regex engine and `lazy_static`: the pattern is an explicit search, with an independent regex-semantics reference (`FrontMatter.RegexMatch`). The table is a constant built once.
- clap argument parsing: dialect names are parsed by `Cli.ParseMat`, but the rest of the command line is not modelled.
- The `unreachable!` panic on a category conflict and the `unimplemented!` panic on an unsupported dialect pair: both are explicit error values.
- Dates.DatePrefix: states the round trip for years 0..9999 only. Other years still get `{:04}` padding, with a sign for negative years, but do not fit the ten-character shape.

=== FILE: base.dfy ===
/**
 Failure-carrying datatypes and the ASCII string helpers (`trim`, `to_lowercase`)
 that the converter applies to tags and dialect names.
 */
module Base {

  datatype Option<+T> = None | Some(value: T) {
    /** The carried value, or `default` for `None` (Rust's `unwrap_or`). */
    function GetOr(default: T): T {
      match this
      case Some(v) => v
      case None => default
    }
  }

  datatype Result<+T, +E> = Ok(value: T) | Err(error: E)

  /** The ASCII characters Rust's `char::is_whitespace` accepts. */
  predicate IsSpace(c: char) {
    c == ' ' || c == '\t' || c == '\n' || c == '\r' || c == '\U{000B}' || c == '\U{000C}'
  }

  predicate IsUpper(c: char) {
    'A' <= c <= 'Z'
  }

  function LowerChar(c: char): (r: char)
    ensures !IsUpper(r)
    ensures IsUpper(c) ==> r as int - 'a' as int == c as int - 'A' as int
    ensures !IsUpper(c) ==> r == c
    ensures IsSpace(r) <==> IsSpace(c)
  {
    if IsUpper(c) then (c as int + 32) as char else c
  }

  /** ASCII `to_lowercase`: every upper-case letter is mapped, nothing else moves. */
  function ToLower(s: string): (r: string)
    ensures |r| == |s|
    ensures forall i :: 0 <= i < |r| ==> !IsUpper(r[i])
    ensures forall i :: 0 <= i < |s| && !IsUpper(s[i]) ==> r[i] == s[i]
    ensures forall i :: 0 <= i < |s| && IsUpper(s[i]) ==> r[i] as int - 'a' as int == s[i] as int - 'A' as int
  {
    seq(|s|, i requires 0 <= i < |s| => LowerChar(s[i]))
  }

  predicate IsLowered(s: string) {
    forall i :: 0 <= i < |s| ==> !IsUpper(s[i])
  }

  /** Index of the first non-space character at or after `i`, or `|s|`. */
  function SkipSpaces(s: string, i: nat): (k: nat)
    requires i <= |s|
    ensures i <= k <= |s|
    ensures forall j :: i <= j < k ==> IsSpace(s[j])
    ensures k < |s| ==> !IsSpace(s[k])
    decreases |s| - i
  {
    if i < |s| && IsSpace(s[i]) then SkipSpaces(s, i + 1) else i
  }

  /** Index just past the last non-space character before `j`, or 0. */
  function SkipSpacesBack(s: string, j: nat): (k: nat)
    requires j <= |s|
    ensures k <= j
    ensures forall i :: k <= i < j ==> IsSpace(s[i])
    ensures k > 0 ==> !IsSpace(s[k - 1])
  {
    if j > 0 && IsSpace(s[j - 1]) then SkipSpacesBack(s, j - 1) else j
  }

  /** Number of whitespace characters at the front of `s`. */
  function LeadingSpaces(s: string): (k: nat)
    ensures k <= |s|
    ensures forall i :: 0 <= i < k ==> IsSpace(s[i])
    ensures k < |s| ==> !IsSpace(s[k])
  {
    SkipSpaces(s, 0)
  }

  /** Index just past the last non-whitespace character of `s`. */
  function TrailingStart(s: string): (k: nat)
    ensures k <= |s|
    ensures forall i :: k <= i < |s| ==> IsSpace(s[i])
    ensures k > 0 ==> !IsSpace(s[k - 1])
  {
    SkipSpacesBack(s, |s|)
  }

  /** A string of white space only. */
  predicate IsBlank(s: string) {
    forall i :: 0 <= i < |s| ==> IsSpace(s[i])
  }

  /**
   `str::trim`, restricted to ASCII whitespace: the input with its leading and
   trailing white space cut, and nothing else.
   */
  function Trim(s: string): (r: string)
    ensures |r| <= |s|
    ensures |r| > 0 ==> !IsSpace(r[0]) && !IsSpace(r[|r| - 1])
    ensures |r| == 0 <==> IsBlank(s)
    ensures LeadingSpaces(s) + |r| <= |s| && r == s[LeadingSpaces(s)..LeadingSpaces(s) + |r|]
    ensures IsBlank(s[..LeadingSpaces(s)]) && IsBlank(s[LeadingSpaces(s) + |r|..])
  {
    var a := LeadingSpaces(s);
    if a == |s| then
      assert s[a..] == [];
      []
    else
      var b := TrailingStart(s);
      assert a < b;
      s[a..b]
  }

  /** The normalisation applied before every keyword lookup: trim, then lower-case. */
  function Normalize(s: string): (r: string)
    ensures IsLowered(r)
    ensures |r| > 0 ==> !IsSpace(r[0]) && !IsSpace(r[|r| - 1])
    ensures |r| == 0 <==> IsBlank(s)
    ensures LeadingSpaces(s) + |r| <= |s| && IsBlank(s[LeadingSpaces(s) + |r|..])
  {
    ToLower(Trim(s))
  }

  /**
   What normalisation keeps: the text between the leading and trailing white
   space, each letter lower-cased. Stated apart from `Normalize`'s contract so
   that every tag lookup does not carry it.
   */
  lemma NormalizeSpec(s: string)
    ensures LeadingSpaces(s) + |Normalize(s)| <= |s|
    ensures Normalize(s) == ToLower(s[LeadingSpaces(s)..LeadingSpaces(s) + |Normalize(s)|])
  {
  }

  lemma TrimOfTrimmed(s: string)
    requires |s| == 0 || (!IsSpace(s[0]) && !IsSpace(s[|s| - 1]))
    ensures Trim(s) == s
  {
    if |s| > 0 {
      assert LeadingSpaces(s) == 0;
      assert TrailingStart(s) == |s|;
    }
  }

  lemma ToLowerOfLowered(s: string)
    requires IsLowered(s)
    ensures ToLower(s) == s
  {
  }

  /** A string with no surrounding white space and no upper case is its own normal form. */
  lemma NormalizeOfNormal(k: string)
    requires IsLowered(k)
    requires |k| == 0 || (!IsSpace(k[0]) && !IsSpace(k[|k| - 1]))
    ensures Normalize(k) == k
  {
    TrimOfTrimmed(k);
    ToLowerOfLowered(k);
  }

  /** Normalisation is idempotent: a normalised key is its own normal form. */
  lemma NormalizeIdempotent(s: string)
    ensures Normalize(Normalize(s)) == Normalize(s)
  {
    var t := Trim(s);
    var n := ToLower(t);
    assert |n| > 0 ==> !IsSpace(n[0]) && !IsSpace(n[|n| - 1]);
    TrimOfTrimmed(n);
    ToLowerOfLowered(n);
  }

  /** Blank text in front of `s` shifts its leading run and where its trailing run starts. */
  lemma PaddedFront(pad: string, s: string)
    requires IsBlank(pad) && !IsBlank(s)
    ensures !IsBlank(pad + s)
    ensures LeadingSpaces(pad + s) == |pad| + LeadingSpaces(s)
    ensures TrailingStart(pad + s) == |pad| + TrailingStart(s)
  {
    var w, n := pad + s, |pad|;
    var a, b := LeadingSpaces(s), TrailingStart(s);
    assert w[n + a] == s[a];
    forall i | 0 <= i < n + a
      ensures IsSpace(w[i])
    {
      if i >= n {
        assert w[i] == s[i - n];
      }
    }
    assert w[n + b - 1] == s[b - 1];
    forall i | n + b <= i < |w|
      ensures IsSpace(w[i])
    {
      assert w[i] == s[i - n];
    }
  }

  /** Blank text after `s` leaves its leading run and where its trailing run starts. */
  lemma PaddedBack(s: string, pad: string)
    requires IsBlank(pad) && !IsBlank(s)
    ensures !IsBlank(s + pad)
    ensures LeadingSpaces(s + pad) == LeadingSpaces(s)
    ensures TrailingStart(s + pad) == TrailingStart(s)
  {
    var w := s + pad;
    var a, b := LeadingSpaces(s), TrailingStart(s);
    assert w[a] == s[a];
    forall i | 0 <= i < a
      ensures IsSpace(w[i])
    {
      assert w[i] == s[i];
    }
    assert w[b - 1] == s[b - 1];
    forall i | b <= i < |w|
      ensures IsSpace(w[i])
    {
      if i >= |s| {
        assert w[i] == pad[i - |s|];
      }
    }
  }

  /** Blank text joined to blank text is blank. */
  lemma BlankAppend(x: string, y: string)
    requires IsBlank(x) && IsBlank(y)
    ensures IsBlank(x + y)
  {
    forall i | 0 <= i < |x + y|
      ensures IsSpace((x + y)[i])
    {
      if i >= |x| {
        assert (x + y)[i] == y[i - |x|];
      }
    }
  }

  lemma TrimPaddedBlank(pad1: string, s: string, pad2: string)
    requires IsBlank(pad1) && IsBlank(s) && IsBlank(pad2)
    ensures Trim(pad1 + s + pad2) == [] == Trim(s)
  {
    BlankAppend(pad1, s);
    BlankAppend(pad1 + s, pad2);
  }

  lemma {:induction false} TrimPaddedText(pad1: string, s: string, pad2: string)
    requires IsBlank(pad1) && !IsBlank(s) && IsBlank(pad2)
    ensures Trim(pad1 + s + pad2) == Trim(s)
  {
    var v := pad1 + s;
    var w := v + pad2;
    var a, b := LeadingSpaces(s), TrailingStart(s);
    var n := |pad1|;
    assert LeadingSpaces(w) == n + a && TrailingStart(w) == n + b && !IsBlank(w) by {
      PaddedFront(pad1, s);
      PaddedBack(v, pad2);
    }
    assert a < b;
    PaddedSlice(pad1, s, pad2, a, b);
    TrimByBounds(w, s);
  }

  /** Two non-blank strings whose text between the white-space runs agrees trim alike. */
  lemma TrimByBounds(x: string, y: string)
    requires !IsBlank(x) && !IsBlank(y)
    requires LeadingSpaces(x) <= TrailingStart(x) && LeadingSpaces(y) <= TrailingStart(y)
    requires x[LeadingSpaces(x)..TrailingStart(x)] == y[LeadingSpaces(y)..TrailingStart(y)]
    ensures Trim(x) == Trim(y)
  {
    TrimNonBlank(x);
    TrimNonBlank(y);
  }

  lemma TrimNonBlank(w: string)
    requires !IsBlank(w)
    ensures LeadingSpaces(w) < TrailingStart(w) <= |w|
    ensures Trim(w) == w[LeadingSpaces(w)..TrailingStart(w)]
  {
  }

  lemma PaddedSlice(pad1: string, s: string, pad2: string, i: nat, j: nat)
    requires i <= j <= |s|
    ensures (pad1 + s + pad2)[|pad1| + i..|pad1| + j] == s[i..j]
  {
    var w := pad1 + s + pad2;
    assert forall k :: 0 <= k < j - i ==> w[|pad1| + i..|pad1| + j][k] == s[i..j][k];
  }

  /** Whitespace around a string is exactly what trimming removes. */
  lemma TrimIgnoresPadding(pad1: string, s: string, pad2: string)
    requires IsBlank(pad1) && IsBlank(pad2)
    ensures Trim(pad1 + s + pad2) == Trim(s)
  {
    if IsBlank(s) {
      TrimPaddedBlank(pad1, s, pad2);
    } else {
      TrimPaddedText(pad1, s, pad2);
    }
  }

  /** Whitespace around a string never changes its normal form. */
  lemma NormalizeIgnoresPadding(pad1: string, s: string, pad2: string)
    requires IsBlank(pad1) && IsBlank(pad2)
    ensures Normalize(pad1 + s + pad2) == Normalize(s)
  {
    TrimIgnoresPadding(pad1, s, pad2);
  }

  lemma ToLowerIgnoresCase(s: string, t: string)
    requires |s| == |t|
    requires forall i :: 0 <= i < |s| ==> LowerChar(s[i]) == LowerChar(t[i])
    ensures ToLower(s) == ToLower(t)
  {
  }

  /** Two strings that differ only in letter case have the same normal form. */
  lemma NormalizeIgnoresCase(s: string, t: string)
    requires |s| == |t|
    requires forall i :: 0 <= i < |s| ==> LowerChar(s[i]) == LowerChar(t[i])
    ensures Normalize(s) == Normalize(t)
  {
    forall i | 0 <= i < |s|
      ensures IsSpace(s[i]) <==> IsSpace(t[i])
    {
      assert IsSpace(LowerChar(s[i])) <==> IsSpace(s[i]);
      assert IsSpace(LowerChar(t[i])) <==> IsSpace(t[i]);
    }
    var a := LeadingSpaces(s);
    assert a == LeadingSpaces(t);
    if a < |s| {
      var b := TrailingStart(s);
      assert b == TrailingStart(t);
      ToLowerIgnoresCase(s[a..b], t[a..b]);
    }
  }
}

=== FILE: categories.dfy ===
/**
 The tag classifier of the Jekyll mapper (src/mapper/jekyll.rs): the fixed
 keyword table `TAG_TO_CAT_MAP`, the category enumeration `Cat`, and
 `map_tags_to_cats`, which folds a document's tags into one category.
 */
module Categories {
  import opened Base

  /** The category taxonomy; `Oth` is the default. */
  datatype Cat = Algs | Lang | OS | Net | Oth

  const AlgsKeywords: seq<string> := ["string", "string pattern match", "algorithm", "graph"]
  const LangKeywords: seq<string> := ["c", "common lisp", "php", "haskell", "hy", "python", "compiler", "llvm"]
  const OsKeywords: seq<string> := ["linux", "kernel", "fs", "shell", "bash", "sudo"]
  const NetKeywords: seq<string> := ["ietf rfcs", "ietf"]

  /** The keyword lists in the order the table is filled (jekyll.rs:42-80). */
  const Groups: seq<(Cat, seq<string>)> :=
    [(Algs, AlgsKeywords), (Lang, LangKeywords), (OS, OsKeywords), (Net, NetKeywords)]

  /** Inserts every keyword of one list with category `c`, in list order. */
  function InsertAll(m: map<string, Cat>, c: Cat, keys: seq<string>): (r: map<string, Cat>)
    ensures r.Keys == m.Keys + set k | k in keys
    ensures forall k :: k in keys ==> r[k] == c
    ensures forall k :: k in m && k !in keys ==> r[k] == m[k]
  {
    if |keys| == 0 then m
    else InsertAll(m, c, keys[..|keys| - 1])[keys[|keys| - 1] := c]
  }

  /** The list `i` is the last of `groups` holding keyword `k`. */
  predicate LastHolder(groups: seq<(Cat, seq<string>)>, i: int, k: string) {
    && 0 <= i < |groups| && k in groups[i].1
    && forall j :: i < j < |groups| ==> k !in groups[j].1
  }

  /**
   The nested insertion loop of jekyll.rs:82-87: the keys are the keywords of
   all lists, and a later insertion overwrites an earlier one, so a keyword
   maps to the category of the last list that holds it.
   */
  function BuildTable(groups: seq<(Cat, seq<string>)>): (r: map<string, Cat>)
    ensures forall i, k :: LastHolder(groups, i, k) ==> k in r && r[k] == groups[i].0
  {
    if |groups| == 0 then map[]
    else
      var n := |groups| - 1;
      var init := groups[..n];
      var g := groups[n];
      assert forall i, k :: LastHolder(groups, i, k) && i < n ==> LastHolder(init, i, k);
      InsertAll(BuildTable(init), g.0, g.1)
  }

  /** The table holds no key that is not a keyword of some list. */
  lemma {:induction false} BuildTableKeys(groups: seq<(Cat, seq<string>)>)
    ensures forall k :: k in BuildTable(groups) ==> exists i :: 0 <= i < |groups| && k in groups[i].1
    decreases |groups|
  {
    if |groups| > 0 {
      var n := |groups| - 1;
      var init := groups[..n];
      BuildTableKeys(init);
      forall k | k in BuildTable(groups)
        ensures exists i :: 0 <= i < |groups| && k in groups[i].1
      {
        assert BuildTable(groups) == InsertAll(BuildTable(init), groups[n].0, groups[n].1);
        if k !in groups[n].1 {
          assert k in BuildTable(init);
          var i :| 0 <= i < |init| && k in init[i].1;
          assert groups[i] == init[i];
        }
      }
    }
  }

  /** `TAG_TO_CAT_MAP`. */
  const TagTable: map<string, Cat> := BuildTable(Groups)

  /** No keyword is in both lists. */
  predicate ListsDisjoint(a: seq<string>, b: seq<string>) {
    forall k :: k in a ==> k !in b
  }

  /** No keyword appears in two different lists. */
  predicate Disjoint(groups: seq<(Cat, seq<string>)>) {
    forall i, j :: 0 <= i < j < |groups| ==> ListsDisjoint(groups[i].1, groups[j].1)
  }

  /** Every key of the built table comes from some list, and maps to that list's category. */
  lemma BuildTableSpec(groups: seq<(Cat, seq<string>)>)
    requires Disjoint(groups)
    ensures forall k :: k in BuildTable(groups) <==> exists i :: 0 <= i < |groups| && k in groups[i].1
    ensures forall i, k :: 0 <= i < |groups| && k in groups[i].1 ==> BuildTable(groups)[k] == groups[i].0
  {
    BuildTableKeys(groups);
    forall i, k | 0 <= i < |groups| && k in groups[i].1
      ensures k in BuildTable(groups) && BuildTable(groups)[k] == groups[i].0
    {
      assert LastHolder(groups, i, k);
    }
  }

  /** The category a keyword gets by list membership, independent of the table. */
  function KeywordCategory(k: string): Option<Cat> {
    if k in AlgsKeywords then Some(Algs)
    else if k in LangKeywords then Some(Lang)
    else if k in OsKeywords then Some(OS)
    else if k in NetKeywords then Some(Net)
    else None
  }

  lemma AlgsLangDisjoint() ensures ListsDisjoint(AlgsKeywords, LangKeywords) {}
  lemma AlgsOsDisjoint() ensures ListsDisjoint(AlgsKeywords, OsKeywords) {}
  lemma AlgsNetDisjoint() ensures ListsDisjoint(AlgsKeywords, NetKeywords) {}
  lemma LangOsDisjoint() ensures ListsDisjoint(LangKeywords, OsKeywords) {}
  lemma LangNetDisjoint() ensures ListsDisjoint(LangKeywords, NetKeywords) {}
  lemma OsNetDisjoint() ensures ListsDisjoint(OsKeywords, NetKeywords) {}

  lemma GroupsDisjoint()
    ensures Disjoint(Groups)
  {
    AlgsLangDisjoint();
    AlgsOsDisjoint();
    AlgsNetDisjoint();
    LangOsDisjoint();
    LangNetDisjoint();
    OsNetDisjoint();
  }

  /**
   The table is functional: the four keyword lists are disjoint, and a key is
   in the table exactly when it is in one list, mapping to that list's category.
   */
  lemma TagTableSpec(k: string)
    ensures k in TagTable <==> KeywordCategory(k).Some?
    ensures k in TagTable ==> TagTable[k] == KeywordCategory(k).value
  {
    GroupsDisjoint();
    BuildTableSpec(Groups);
    if KeywordCategory(k).Some? {
      var i := if k in AlgsKeywords then 0 else if k in LangKeywords then 1 else if k in OsKeywords then 2 else 3;
      assert k in Groups[i].1;
    }
    if k in TagTable {
      var i :| 0 <= i < |Groups| && k in Groups[i].1;
      assert Groups[i].0 == KeywordCategory(k).value by {
        assert Disjoint(Groups);
        if i == 1 { assert k !in Groups[0].1; }
        if i == 2 { assert k !in Groups[0].1 && k !in Groups[1].1; }
        if i == 3 { assert k !in Groups[0].1 && k !in Groups[1].1 && k !in Groups[2].1; }
      }
    }
  }

  /** Lookup of a tag in `table` after trimming and lower-casing it (jekyll.rs:219-221). */
  function LookupIn(table: map<string, Cat>, tag: string): (r: Option<Cat>)
    ensures r.Some? <==> Normalize(tag) in table
    ensures r.Some? ==> r.value == table[Normalize(tag)]
  {
    var k := Normalize(tag);
    if k in table then Some(table[k]) else None
  }

  /** Lookup in `TAG_TO_CAT_MAP` agrees with keyword-list membership of the normalised tag. */
  lemma LookupSpec(tag: string)
    ensures LookupIn(TagTable, tag) == KeywordCategory(Normalize(tag))
  {
    TagTableSpec(Normalize(tag));
  }

  /** The panic of jekyll.rs:224: a newly found category differs from the one already kept. */
  datatype CatConflict = MultipleCategories(found: Cat, existing: Cat)

  /** The loop of jekyll.rs:218-230 from accumulator `acc`: keep the first match, fail on a different one. */
  function Fold(table: map<string, Cat>, tags: seq<string>, acc: Option<Cat>): (r: Result<Option<Cat>, CatConflict>)
    ensures r.Ok? && acc.Some? ==> r.value == acc
    ensures r.Ok? && r.value.None? ==> acc.None?
  {
    if |tags| == 0 then Ok(acc)
    else
      match LookupIn(table, tags[0])
      case None => Fold(table, tags[1..], acc)
      case Some(c) =>
        match acc
        case None => Fold(table, tags[1..], Some(c))
        case Some(a) => if a != c then Err(MultipleCategories(c, a)) else Fold(table, tags[1..], acc)
  }

  /** `map_tags_to_cats` over a given table: always a single category, `Oth` when nothing matched. */
  function MapTagsToCatsIn(table: map<string, Cat>, tags: seq<string>): (r: Result<seq<Cat>, CatConflict>)
    ensures r.Ok? ==> |r.value| == 1
    ensures r.Ok? ==> r.value[0] == Oth || exists i :: 0 <= i < |tags| && LookupIn(table, tags[i]) == Some(r.value[0])
    ensures r.Err? ==> r.error.found != r.error.existing
  {
    FoldSpec(table, tags, None);
    match Fold(table, tags, None)
    case Err(e) =>
      FoldErrSpec(table, tags, None);
      Err(e)
    case Ok(o) =>
      if o.Some? then
        assert o.value in MatchedCats(table, tags);
        Ok([o.value])
      else Ok([Oth])
  }

  /** `map_tags_to_cats` (jekyll.rs:215-233) with `TAG_TO_CAT_MAP`. */
  function MapTagsToCats(tags: seq<string>): (r: Result<seq<Cat>, CatConflict>)
    ensures r.Ok? ==> |r.value| == 1
    ensures r.Ok? ==> r.value[0] == Oth || exists i :: 0 <= i < |tags| && KeywordCategory(Normalize(tags[i])) == Some(r.value[0])
    ensures r.Err? ==> r.error.found != r.error.existing
  {
    LookupAll(tags);
    MapTagsToCatsIn(TagTable, tags)
  }

  /** Looking every tag up in `TAG_TO_CAT_MAP` agrees with the keyword lists. */
  lemma LookupAll(tags: seq<string>)
    ensures forall i :: 0 <= i < |tags| ==> LookupIn(TagTable, tags[i]) == KeywordCategory(Normalize(tags[i]))
  {
    forall i | 0 <= i < |tags|
      ensures LookupIn(TagTable, tags[i]) == KeywordCategory(Normalize(tags[i]))
    {
      LookupSpec(tags[i]);
    }
  }

  // ---------------------------------------------------------------------------
  // Reference characterisation: the result depends only on the set of matched categories.

  /** The categories the tags match, regardless of order or repetition. */
  function MatchedCats(table: map<string, Cat>, tags: seq<string>): set<Cat> {
    set t | t in tags && LookupIn(table, t).Some? :: LookupIn(table, t).value
  }

  function AccSet(acc: Option<Cat>): set<Cat> {
    if acc.Some? then {acc.value} else {}
  }

  lemma MatchedCatsCons(table: map<string, Cat>, tags: seq<string>)
    requires |tags| > 0
    ensures MatchedCats(table, tags) == AccSet(LookupIn(table, tags[0])) + MatchedCats(table, tags[1..])
  {
    assert forall t :: t in tags <==> t == tags[0] || t in tags[1..];
  }

  lemma {:induction false} FoldSpec(table: map<string, Cat>, tags: seq<string>, acc: Option<Cat>)
    ensures Fold(table, tags, acc).Ok? <==> AtMostOne(AccSet(acc) + MatchedCats(table, tags))
    ensures Fold(table, tags, acc).Ok? ==>
      AccSet(Fold(table, tags, acc).value) == AccSet(acc) + MatchedCats(table, tags)
    decreases |tags|
  {
    if |tags| == 0 {
      assert MatchedCats(table, tags) == {};
    } else {
      MatchedCatsCons(table, tags);
      var rest := tags[1..];
      var m := MatchedCats(table, rest);
      var l := LookupIn(table, tags[0]);
      if l.None? {
        assert Fold(table, tags, acc) == Fold(table, rest, acc);
        assert MatchedCats(table, tags) == m;
        FoldSpec(table, rest, acc);
      } else if acc.None? {
        assert Fold(table, tags, acc) == Fold(table, rest, l);
        assert AccSet(acc) + MatchedCats(table, tags) == AccSet(l) + m;
        FoldSpec(table, rest, l);
      } else if acc.value == l.value {
        assert Fold(table, tags, acc) == Fold(table, rest, acc);
        assert AccSet(acc) + MatchedCats(table, tags) == AccSet(acc) + m;
        FoldSpec(table, rest, acc);
      } else {
        var a := acc.value;
        var c := l.value;
        assert Fold(table, tags, acc) == Err(MultipleCategories(c, a));
        assert a in AccSet(acc) && c in MatchedCats(table, tags);
      }
    }
  }

  /** A conflict names two different matched categories, the kept one being the first match. */
  lemma {:induction false} FoldErrSpec(table: map<string, Cat>, tags: seq<string>, acc: Option<Cat>)
    requires Fold(table, tags, acc).Err?
    ensures Fold(table, tags, acc).error.found != Fold(table, tags, acc).error.existing
    ensures Fold(table, tags, acc).error.found in MatchedCats(table, tags)
    ensures Fold(table, tags, acc).error.existing in AccSet(acc) + MatchedCats(table, tags)
    ensures acc.Some? ==> Fold(table, tags, acc).error.existing == acc.value
    decreases |tags|
  {
    MatchedCatsCons(table, tags);
    var rest := tags[1..];
    var l := LookupIn(table, tags[0]);
    if l.None? {
      assert Fold(table, tags, acc) == Fold(table, rest, acc);
      FoldErrSpec(table, rest, acc);
    } else if acc.None? {
      assert Fold(table, tags, acc) == Fold(table, rest, l);
      FoldErrSpec(table, rest, l);
    } else if acc.value == l.value {
      assert Fold(table, tags, acc) == Fold(table, rest, acc);
      FoldErrSpec(table, rest, acc);
    }
  }

  /** No two different categories in `s`. */
  predicate AtMostOne(s: set<Cat>) {
    forall x, y :: x in s && y in s ==> x == y
  }

  lemma AtMostOneShape(s: set<Cat>)
    requires AtMostOne(s)
    ensures s == {} || exists c :: s == {c}
  {
    if s != {} {
      var c :| c in s;
      assert s == {c};
    }
  }

  /**
   The classifier against the set of matched categories: nothing matched gives
   `[Oth]`, a single matched category `c` gives `[c]`, and two different
   matched categories are a conflict, never "first wins".
   */
  lemma ClassifySpec(table: map<string, Cat>, tags: seq<string>)
    ensures MatchedCats(table, tags) == {} ==> MapTagsToCatsIn(table, tags) == Ok([Oth])
    ensures forall c :: MatchedCats(table, tags) == {c} ==> MapTagsToCatsIn(table, tags) == Ok([c])
    ensures MapTagsToCatsIn(table, tags).Err? <==> !AtMostOne(MatchedCats(table, tags))
    ensures MapTagsToCatsIn(table, tags).Err? ==>
      && MapTagsToCatsIn(table, tags).error.found in MatchedCats(table, tags)
      && MapTagsToCatsIn(table, tags).error.existing in MatchedCats(table, tags)
  {
    FoldSpec(table, tags, None);
    if Fold(table, tags, None).Err? {
      FoldErrSpec(table, tags, None);
    } else {
      assert AccSet(None) == {};
      var o := Fold(table, tags, None).value;
      if o.Some? {
        assert MatchedCats(table, tags) == {o.value};
      }
    }
  }

  /** The categories the tags name through the keyword lists, regardless of order or repetition. */
  function KeywordCats(tags: seq<string>): set<Cat> {
    set t | t in tags && KeywordCategory(Normalize(t)).Some? :: KeywordCategory(Normalize(t)).value
  }

  /**
   `map_tags_to_cats` against the keyword lists: `[Oth]` when no tag names a
   category, `[c]` when the tags name `c` alone, and a conflict between two of
   the named categories exactly when they name more than one.
   */
  lemma MapTagsToCatsSpec(tags: seq<string>)
    ensures KeywordCats(tags) == {} ==> MapTagsToCats(tags) == Ok([Oth])
    ensures forall c :: KeywordCats(tags) == {c} ==> MapTagsToCats(tags) == Ok([c])
    ensures MapTagsToCats(tags).Err? <==> !AtMostOne(KeywordCats(tags))
    ensures MapTagsToCats(tags).Err? ==>
      var e := MapTagsToCats(tags).error;
      e.found in KeywordCats(tags) && e.existing in KeywordCats(tags) && e.found != e.existing
  {
    LookupAll(tags);
    assert MatchedCats(TagTable, tags) == KeywordCats(tags);
    ClassifySpec(TagTable, tags);
  }

  lemma UnmatchedHeadIgnored(table: map<string, Cat>, u: string, b: seq<string>, acc: Option<Cat>)
    requires LookupIn(table, u).None?
    ensures Fold(table, [u] + b, acc) == Fold(table, b, acc)
  {
    assert ([u] + b)[1..] == b;
  }

  /** Tags that match nothing never change the outcome, wherever they stand. */
  lemma {:induction false} UnmatchedTagIgnored(
    table: map<string, Cat>, a: seq<string>, u: string, b: seq<string>, acc: Option<Cat>)
    requires LookupIn(table, u).None?
    ensures Fold(table, a + [u] + b, acc) == Fold(table, a + b, acc)
    decreases |a|
  {
    if |a| == 0 {
      assert a + [u] + b == [u] + b && a + b == b;
      UnmatchedHeadIgnored(table, u, b, acc);
    } else {
      var x, y := a + [u] + b, a + b;
      assert x[0] == a[0] && y[0] == a[0];
      assert x[1..] == a[1..] + [u] + b;
      assert y[1..] == a[1..] + b;
      match LookupIn(table, a[0]) {
        case None =>
          UnmatchedTagIgnored(table, a[1..], u, b, acc);
        case Some(c) =>
          UnmatchedTagIgnored(table, a[1..], u, b, if acc.None? then Some(c) else acc);
      }
    }
  }

  /** The classification does not depend on the order (or repetition pattern) of the tags. */
  lemma ClassifyOrderIndependent(table: map<string, Cat>, tags: seq<string>, tags': seq<string>)
    requires multiset(tags) == multiset(tags')
    ensures MapTagsToCatsIn(table, tags).Err? <==> MapTagsToCatsIn(table, tags').Err?
    ensures MapTagsToCatsIn(table, tags).Ok? ==> MapTagsToCatsIn(table, tags) == MapTagsToCatsIn(table, tags')
  {
    assert forall t :: t in tags <==> t in tags' by {
      forall t ensures t in tags <==> t in tags' {
        assert t in tags <==> t in multiset(tags);
        assert t in tags' <==> t in multiset(tags');
      }
    }
    assert MatchedCats(table, tags) == MatchedCats(table, tags');
    ClassifySpec(table, tags);
    ClassifySpec(table, tags');
    var m := MatchedCats(table, tags);
    if AtMostOne(m) {
      AtMostOneShape(m);
    }
  }

  /** Lower-cased `Debug` spelling of a category, as written into the header (jekyll.rs:197). */
  function DebugName(c: Cat): string {
    match c
    case Algs => "Algs"
    case Lang => "Lang"
    case OS => "OS"
    case Net => "Net"
    case Oth => "Oth"
  }

  function CatName(c: Cat): (r: string) {
    ToLower(DebugName(c))
  }

  /** Reads a category name back. */
  function ParseCatName(s: string): Option<Cat> {
    if s == "algs" then Some(Algs)
    else if s == "lang" then Some(Lang)
    else if s == "os" then Some(OS)
    else if s == "net" then Some(Net)
    else if s == "oth" then Some(Oth)
    else None
  }

  /** The header names are `algs`, `lang`, `os`, `net`, `oth`, and each names exactly one category. */
  lemma CatNameRoundTrip(c: Cat)
    ensures CatName(c) == match c
      case Algs => "algs" case Lang => "lang" case OS => "os" case Net => "net" case Oth => "oth"
    ensures ParseCatName(CatName(c)) == Some(c)
  {
  }

  /** A one-tag list classifies by the tag's keyword list, `Oth` when it is in none. */
  lemma ClassifySingle(tag: string)
    ensures MapTagsToCats([tag]) == Ok([KeywordCategory(Normalize(tag)).GetOr(Oth)])
  {
    LookupSpec(tag);
    MatchedCatsCons(TagTable, [tag]);
    assert [tag][1..] == [];
    assert MatchedCats(TagTable, []) == {};
    ClassifySpec(TagTable, [tag]);
  }

  /** The categories a two-tag list names are those its tags name. */
  lemma KeywordPair(t1: string, t2: string)
    ensures KeywordCats([t1, t2]) == AccSet(KeywordCategory(Normalize(t1))) + AccSet(KeywordCategory(Normalize(t2)))
  {
    assert forall t :: t in [t1, t2] <==> t == t1 || t == t2;
  }

  /** Two tags of different categories conflict. */
  lemma PairConflict(t1: string, t2: string)
    requires KeywordCategory(Normalize(t1)).Some? && KeywordCategory(Normalize(t2)).Some?
    requires KeywordCategory(Normalize(t1)) != KeywordCategory(Normalize(t2))
    ensures MapTagsToCats([t1, t2]).Err?
  {
    assert !AtMostOne(KeywordCats([t1, t2])) by {
      KeywordPair(t1, t2);
      assert KeywordCategory(Normalize(t1)).value in KeywordCats([t1, t2]);
      assert KeywordCategory(Normalize(t2)).value in KeywordCats([t1, t2]);
    }
    MapTagsToCatsSpec([t1, t2]);
  }

  /** A matched tag next to one of the same category, or an unmatched one, decides the category. */
  lemma PairAgree(t1: string, t2: string)
    requires KeywordCategory(Normalize(t1)).Some?
    requires KeywordCategory(Normalize(t2)) == KeywordCategory(Normalize(t1)) || KeywordCategory(Normalize(t2)).None?
    ensures MapTagsToCats([t1, t2]) == Ok([KeywordCategory(Normalize(t1)).value])
  {
    var c := KeywordCategory(Normalize(t1)).value;
    assert KeywordCats([t1, t2]) == {c} by {
      KeywordPair(t1, t2);
    }
    MapTagsToCatsSpec([t1, t2]);
  }

  /** A two-tag list: agreeing or unmatched tags give one category, two different categories conflict. */
  lemma ClassifyPair(t1: string, t2: string)
    ensures var c1 := KeywordCategory(Normalize(t1));
      var c2 := KeywordCategory(Normalize(t2));
      && (c1.Some? && c2.Some? && c1 != c2 ==> MapTagsToCats([t1, t2]).Err?)
      && (c1.Some? && (c2 == c1 || c2.None?) ==> MapTagsToCats([t1, t2]) == Ok([c1.value]))
  {
    var c1 := KeywordCategory(Normalize(t1));
    var c2 := KeywordCategory(Normalize(t2));
    if c1.Some? && c2.Some? && c1 != c2 {
      PairConflict(t1, t2);
    } else if c1.Some? && (c2 == c1 || c2.None?) {
      PairAgree(t1, t2);
    }
  }

  /** `Linux` lower-cases to the keyword `linux`. */
  lemma LinuxNormal()
    ensures Normalize("Linux") == "linux"
  {
    var t := "Linux";
    TrimOfTrimmed(t);
    assert LowerChar(t[0]) == 'l';
    ToLowerIgnoresCase(t, "linux");
    ToLowerOfLowered("linux");
  }

  /** `Linux` with any white space around it, `" Linux "` say, classifies as `OS`. */
  lemma PaddedLinuxIsOS(pad1: string, pad2: string)
    requires IsBlank(pad1) && IsBlank(pad2)
    ensures MapTagsToCats([pad1 + "Linux" + pad2]) == Ok([OS])
  {
    var t := pad1 + "Linux" + pad2;
    assert Normalize(t) == "linux" by {
      NormalizeIgnoresPadding(pad1, "Linux", pad2);
      LinuxNormal();
    }
    LinuxIsOS();
    ClassifyKnown(t, "linux", OS);
  }

  /** A tag whose normal form is a keyword classifies as that keyword's category. */
  lemma ClassifyKnown(t: string, k: string, c: Cat)
    requires Normalize(t) == k && KeywordCategory(k) == Some(c)
    ensures MapTagsToCats([t]) == Ok([c])
  {
    ClassifySingle(t);
  }

  /** An unknown tag such as `my-random-tag` classifies as `Oth`. */
  lemma UnknownTagExample()
    ensures MapTagsToCats(["my-random-tag"]) == Ok([Oth])
  {
    RandomTagUnmatched();
    ClassifyUnmatched("my-random-tag", "my-random-tag");
  }

  lemma RandomTagUnmatched()
    ensures Normalize("my-random-tag") == "my-random-tag"
    ensures KeywordCategory("my-random-tag").None?
  {
    RandomTagNormal();
    RandomTagNoKeyword();
  }

  lemma RandomTagNormal()
    ensures Normalize("my-random-tag") == "my-random-tag"
  {
    NormalizeOfNormal("my-random-tag");
  }

  lemma RandomTagNoKeyword()
    ensures KeywordCategory("my-random-tag").None?
  {
  }

  /** A tag whose normal form is no keyword classifies as `Oth`. */
  lemma ClassifyUnmatched(t: string, k: string)
    requires Normalize(t) == k && KeywordCategory(k).None?
    ensures MapTagsToCats([t]) == Ok([Oth])
  {
    ClassifySingle(t);
  }

  lemma LinuxIsOS()
    ensures KeywordCategory("linux") == Some(OS)
    ensures KeywordCategory(Normalize("linux")) == Some(OS)
  {
    NormalizeOfNormal("linux");
  }

  lemma ShellIsOS() ensures KeywordCategory(Normalize("shell")) == Some(OS) {
    NormalizeOfNormal("shell");
  }

  lemma AlgorithmIsAlgs() ensures KeywordCategory(Normalize("algorithm")) == Some(Algs) {
    NormalizeOfNormal("algorithm");
  }

  /** `linux` with `shell` is `OS`. */
  lemma AgreeingTagsExample()
    ensures MapTagsToCats(["linux", "shell"]) == Ok([OS])
  {
    LinuxIsOS();
    ShellIsOS();
    ClassifyPair("linux", "shell");
  }

  /** `linux` with `algorithm` is a conflict. */
  lemma ConflictingTagsExample()
    ensures MapTagsToCats(["linux", "algorithm"]).Err?
  {
    LinuxIsOS();
    AlgorithmIsAlgs();
    ClassifyPair("linux", "algorithm");
  }
}

=== FILE: cli.dfy ===
/**
 The command-line front end (src/main.rs): parsing a dialect name, choosing
 the mapper for an (input, output) dialect pair, and the batch loop that
 creates the output directory and converts each document in turn.

 The directory walk and the file reads are plumbing: the documents arrive as
 a sequence of (stem, text) pairs, and the file-system effects are returned as
 a trace instead of being performed.
 */
module Cli {
  import opened Base
  import JekyllMapper

  /** A markdown dialect (main.rs:11-15). */
  datatype Mat = Default | Jekyll

  /** `Mat::from_str` (main.rs:26-36): trimmed and lower-cased, then matched against the names and their one-letter aliases. */
  function ParseMat(s: string): (r: Result<Mat, string>)
    ensures r == Ok(Default) <==> Normalize(s) in {"default", "d"}
    ensures r == Ok(Jekyll) <==> Normalize(s) in {"jekyll", "j"}
    ensures r.Err? ==> r.error == "No Mat matched for " + s
  {
    var k := Normalize(s);
    if k == "default" || k == "d" then Ok(Default)
    else if k == "jekyll" || k == "j" then Ok(Jekyll)
    else Err("No Mat matched for " + s)
  }

  /** The Debug name of a dialect, as `unimplemented!` prints it. */
  function MatName(m: Mat): string {
    match m
    case Default => "Default"
    case Jekyll => "Jekyll"
  }

  /** The only mapper the program has: Default front matter to Jekyll posts. */
  datatype Mapper = DefaultToJekyll

  /** Why the batch stops. */
  datatype RunError =
    | Unsupported(message: string)
    | Conversion(stem: string, cause: JekyllMapper.ConvError)

  /** The dispatch match of main.rs:42-45; every pair but (Default, Jekyll) is `unimplemented!`. */
  function SelectMapper(inmat: Mat, outmat: Mat): (r: Result<Mapper, RunError>)
    ensures r.Ok? <==> inmat == Default && outmat == Jekyll
    ensures r.Err? ==> r.error == Unsupported(MatName(inmat) + " -> " + MatName(outmat))
  {
    match (inmat, outmat)
    case (Default, Jekyll) => Ok(DefaultToJekyll)
    case _ => Err(Unsupported(MatName(inmat) + " -> " + MatName(outmat)))
  }

  /** A document found by the walk: its file stem and its text. */
  datatype Document = Document(stem: string, raw: string)

  /** A file-system effect of the run. */
  datatype Effect = MakeDir(dir: string) | WriteFile(path: string, text: string)

  /** The effects of a run and how it ended. */
  datatype Outcome = Outcome(effects: seq<Effect>, result: Result<(), RunError>)

  /** The conversion one document goes through. */
  type Converter = Document -> Result<JekyllMapper.Output, JekyllMapper.ConvError>

  /**
   The loop of main.rs:55-62: each document is converted and written in walk
   order; the `?` on the conversion ends the run at the first failure.
   */
  function ConvertAll(docs: seq<Document>, convert: Converter): (o: Outcome)
    ensures |o.effects| <= |docs|
    ensures o.result.Ok? ==> |o.effects| == |docs|
  {
    if |docs| == 0 then Outcome([], Ok(()))
    else
      match convert(docs[0])
      case Err(e) => Outcome([], Err(Conversion(docs[0].stem, e)))
      case Ok(out) =>
        var rest := ConvertAll(docs[1..], convert);
        Outcome([WriteFile(out.path, out.text)] + rest.effects, rest.result)
  }

  /**
   The batch succeeds exactly when every document converts; it writes the
   converted documents in order, and on failure it has written exactly the
   documents before the first one that fails, and reports that one.
   */
  lemma {:induction false} ConvertAllSpec(docs: seq<Document>, convert: Converter)
    ensures var o := ConvertAll(docs, convert);
      o.result.Ok? <==> forall i :: 0 <= i < |docs| ==> convert(docs[i]).Ok?
    ensures var o := ConvertAll(docs, convert);
      forall i :: 0 <= i < |o.effects| ==>
        convert(docs[i]).Ok? && o.effects[i] == WriteFile(convert(docs[i]).value.path, convert(docs[i]).value.text)
    ensures var o := ConvertAll(docs, convert);
      o.result.Err? ==>
        && |o.effects| < |docs|
        && convert(docs[|o.effects|]).Err?
        && o.result.error == Conversion(docs[|o.effects|].stem, convert(docs[|o.effects|]).error)
    decreases |docs|
  {
    if |docs| > 0 && convert(docs[0]).Ok? {
      var rest := docs[1..];
      ConvertAllSpec(rest, convert);
      assert forall i :: 1 <= i < |docs| ==> rest[i - 1] == docs[i];
      var o := ConvertAll(docs, convert);
      var ro := ConvertAll(rest, convert);
      assert o.effects == [o.effects[0]] + ro.effects;
      assert forall i :: 1 <= i < |o.effects| ==> o.effects[i] == ro.effects[i - 1];
    }
  }

  /** The Default-to-Jekyll conversion of one document into `outdir`. */
  function JekyllConverter(outdir: string, f: JekyllMapper.Foreign): Converter {
    (d: Document) => JekyllMapper.ConvertDocument(outdir, d.stem, d.raw, f)
  }

  /** `main` after argument parsing (main.rs:39-65): dispatch, create the output directory, convert the batch. */
  function Run(outdir: string, inmat: Mat, outmat: Mat, docs: seq<Document>, f: JekyllMapper.Foreign): (o: Outcome)
    ensures SelectMapper(inmat, outmat).Err? ==> o == Outcome([], Err(SelectMapper(inmat, outmat).error))
    ensures SelectMapper(inmat, outmat).Ok? ==>
      && |o.effects| >= 1 && o.effects[0] == MakeDir(outdir)
      && o.effects[1..] == ConvertAll(docs, JekyllConverter(outdir, f)).effects
      && o.result == ConvertAll(docs, JekyllConverter(outdir, f)).result
  {
    match SelectMapper(inmat, outmat)
    case Err(e) => Outcome([], Err(e))
    case Ok(_) =>
      var batch := ConvertAll(docs, JekyllConverter(outdir, f));
      Outcome([MakeDir(outdir)] + batch.effects, batch.result)
  }

  // ---------------------------------------------------------------------------
  // Properties.

  /** The canonical spelling of each dialect, the one `ParseMat` accepts in lower case. */
  function MatKeyword(m: Mat): string {
    match m
    case Default => "default"
    case Jekyll => "jekyll"
  }

  /** Parsing ignores surrounding white space. */
  lemma ParseMatIgnoresPadding(pad1: string, s: string, pad2: string)
    requires IsBlank(pad1) && IsBlank(pad2)
    ensures ParseMat(pad1 + s + pad2).Ok? <==> ParseMat(s).Ok?
    ensures ParseMat(pad1 + s + pad2).Ok? ==> ParseMat(pad1 + s + pad2) == ParseMat(s)
  {
    NormalizeIgnoresPadding(pad1, s, pad2);
  }

  /** Parsing ignores letter case. */
  lemma ParseMatIgnoresCase(s: string, t: string)
    requires |s| == |t|
    requires forall i :: 0 <= i < |s| ==> LowerChar(s[i]) == LowerChar(t[i])
    ensures ParseMat(s).Ok? <==> ParseMat(t).Ok?
    ensures ParseMat(s).Ok? ==> ParseMat(s) == ParseMat(t)
  {
    NormalizeIgnoresCase(s, t);
  }

  /** Exactly the two names and their aliases are accepted, after normalisation. */
  lemma ParseMatAccepts(s: string)
    ensures ParseMat(s).Ok? <==> Normalize(s) in {"default", "d", "jekyll", "j"}
  {
  }

  /** The keyword and its one-letter alias both parse back to the dialect. */
  lemma ParseMatRoundTrip(m: Mat)
    ensures ParseMat(MatKeyword(m)) == Ok(m)
    ensures ParseMat(MatKeyword(m)[..1]) == Ok(m)
  {
    match m
    case Default =>
      assert MatKeyword(m)[..1] == "d";
      DefaultParses();
    case Jekyll =>
      assert MatKeyword(m)[..1] == "j";
      JekyllParses();
  }

  lemma DefaultParses()
    ensures ParseMat("default") == Ok(Default) && ParseMat("d") == Ok(Default)
  {
    NormalizeOfNormal("default");
    NormalizeOfNormal("d");
  }

  lemma JekyllParses()
    ensures ParseMat("jekyll") == Ok(Jekyll) && ParseMat("j") == Ok(Jekyll)
  {
    NormalizeOfNormal("jekyll");
    NormalizeOfNormal("j");
  }

  /** An unsupported dialect pair creates nothing and writes nothing. */
  lemma UnsupportedPairHasNoEffects(outdir: string, inmat: Mat, outmat: Mat, docs: seq<Document>, f: JekyllMapper.Foreign)
    requires !(inmat == Default && outmat == Jekyll)
    ensures Run(outdir, inmat, outmat, docs, f).effects == []
    ensures Run(outdir, inmat, outmat, docs, f).result.Err?
  {
  }

  /** The batch's writes are the conversions of its leading documents: converting `a + b` starts with converting `a`. */
  lemma {:induction false} ConvertAllAppend(a: seq<Document>, b: seq<Document>, convert: Converter)
    ensures var oa := ConvertAll(a, convert);
      oa.result.Err? ==> ConvertAll(a + b, convert) == oa
    ensures var oa := ConvertAll(a, convert);
      oa.result.Ok? ==>
        ConvertAll(a + b, convert).effects == oa.effects + ConvertAll(b, convert).effects
        && ConvertAll(a + b, convert).result == ConvertAll(b, convert).result
    decreases |a|
  {
    if |a| == 0 {
      assert a + b == b;
    } else {
      var ab := a + b;
      assert ab[0] == a[0];
      assert ab[1..] == a[1..] + b;
      match convert(a[0]) {
        case Err(e) =>
          assert ConvertAll(ab, convert) == Outcome([], Err(Conversion(a[0].stem, e)));
        case Ok(out) =>
          ConvertAllAppend(a[1..], b, convert);
          var w := [WriteFile(out.path, out.text)];
          var ra, rb := ConvertAll(a[1..], convert), ConvertAll(b, convert);
          assert ConvertAll(a, convert) == Outcome(w + ra.effects, ra.result);
          assert ConvertAll(ab, convert) == Outcome(w + ConvertAll(a[1..] + b, convert).effects, ConvertAll(a[1..] + b, convert).result);
          if ra.result.Ok? {
            assert w + (ra.effects + rb.effects) == (w + ra.effects) + rb.effects;
          }
      }
    }
  }
}

=== FILE: dates.dfy ===
/**
 The calendar date carried by a front-matter block and its rendering as the
 `{:04}-{:02}-{:02}` prefix of Jekyll post names (src/mapper/jekyll.rs).
 */
module Dates {
  import opened Base

  /** The year/month/day view of a parsed date; time of day is never used downstream. */
  datatype Date = Date(year: int, month: int, day: int)

  /** What a calendar date guarantees about its month and day fields. */
  predicate ValidDate(d: Date) {
    1 <= d.month <= 12 && 1 <= d.day <= 31
  }

  predicate IsDigit(c: char) {
    '0' <= c <= '9'
  }

  predicate AllDigits(s: string) {
    forall i :: 0 <= i < |s| ==> IsDigit(s[i])
  }

  function Digit(n: nat): (c: char)
    requires n < 10
    ensures IsDigit(c)
  {
    ('0' as int + n) as char
  }

  function DigitValue(c: char): (n: nat)
    requires IsDigit(c)
    ensures n < 10 && Digit(n) == c
  {
    c as int - '0' as int
  }

  /** Shortest decimal spelling of `n` (`"0"` for zero). */
  function DecimalDigits(n: nat): (r: string)
    ensures 1 <= |r|
    ensures AllDigits(r)
    decreases n
  {
    if n < 10 then [Digit(n)] else DecimalDigits(n / 10) + [Digit(n % 10)]
  }

  function Zeros(k: nat): (r: string)
    ensures |r| == k && AllDigits(r)
  {
    if k == 0 then [] else Zeros(k - 1) + ['0']
  }

  /** Left-pads a digit string with zeros up to `width` characters. */
  function PadZeros(digits: string, width: nat): (r: string)
    ensures |r| == if |digits| < width then width else |digits|
    ensures r[|r| - |digits|..] == digits
    ensures AllDigits(digits) ==> AllDigits(r)
  {
    if |digits| < width then Zeros(width - |digits|) + digits else digits
  }

  /** The digits of `m`, left-padded with zeros to at least `w` characters. */
  function PadDigits(m: nat, w: int): (r: string)
    ensures AllDigits(r)
    ensures |r| == if |DecimalDigits(m)| < w then w else |DecimalDigits(m)|
    ensures DigitsValue(r) == m
  {
    var ds := DecimalDigits(m);
    DigitsValueOfDecimal(m);
    var padded := PadZeros(ds, if w < 0 then 0 else w);
    assert DigitsValue(padded) == m by {
      if |ds| < w { DigitsValueIgnoresLeadingZeros(w - |ds|, ds); }
    }
    padded
  }

  /**
   Rust's `{:0W}` for an integer: the sign counts towards the width and the
   zeros go between the sign and the digits (`-5` at width 4 is `-005`).
   */
  function ZeroPad(n: int, width: nat): (r: string)
    ensures n >= 0 ==> AllDigits(r) && |r| >= width
    ensures n >= 0 ==> |r| == if |DecimalDigits(n)| < width then width else |DecimalDigits(n)|
    ensures n >= 0 ==> DigitsValue(r) == n
    ensures n < 0 ==> |r| >= 2 && |r| >= width && r[0] == '-' && AllDigits(r[1..])
    ensures n < 0 ==> |r| == 1 + if |DecimalDigits(-n)| < width - 1 then width - 1 else |DecimalDigits(-n)|
    ensures n < 0 ==> DigitsValue(r[1..]) == -n
  {
    if n >= 0 then PadDigits(n, width)
    else
      var padded := PadDigits(-n, width - 1);
      assert ("-" + padded)[1..] == padded;
      "-" + padded
  }

  /**
   The post-name prefix `YYYY-MM-DD` (jekyll.rs:149-154). For a year in
   0..9999 it is ten characters with dashes at 4 and 7, and reading it back
   yields the same date.
   */
  function DatePrefix(d: Date): (r: string)
    ensures |r| >= 10
    ensures ValidDate(d) && 0 <= d.year <= 9999 ==>
      |r| == 10 && r[4] == '-' && r[7] == '-' && ParseDatePrefix(r) == Some(d)
  {
    PaddedDateParses(d);
    ZeroPad(d.year, 4) + "-" + ZeroPad(d.month, 2) + "-" + ZeroPad(d.day, 2)
  }

  /**
   The output file name `<date>-<stem>.md` (jekyll.rs:160): the date prefix,
   a dash, the verbatim stem and `.md`, for every year. For a valid date with
   a year in 0..9999 the name splits back into the date and the stem.
   */
  function OutputName(d: Date, stem: string): (r: string)
    ensures var p := DatePrefix(d);
      && |r| == |p| + |stem| + 4
      && r[..|p|] == p && r[|p|] == '-'
      && r[|p| + 1..|r| - 3] == stem
      && r[|r| - 3..] == ".md"
    ensures ValidDate(d) && 0 <= d.year <= 9999 ==>
      && |r| == 14 + |stem|
      && ParseOutputName(r) == Some((d, stem))
  {
    var p := DatePrefix(d);
    NameParts(p, stem);
    assert ValidDate(d) && 0 <= d.year <= 9999 ==> ParseOutputName(p + "-" + stem + ".md") == Some((d, stem)) by {
      if ValidDate(d) && 0 <= d.year <= 9999 {
        NameParses(p, stem, d);
      }
    }
    p + "-" + stem + ".md"
  }

  /** A ten-character prefix that reads back as `d` gives a name that splits back into `d` and the stem. */
  lemma NameParses(p: string, stem: string, d: Date)
    requires |p| == 10 && ParseDatePrefix(p) == Some(d)
    ensures ParseOutputName(p + "-" + stem + ".md") == Some((d, stem))
  {
    NameParts(p, stem);
  }

  /** Where the prefix, the stem and the extension sit in `<prefix>-<stem>.md`. */
  lemma NameParts(p: string, stem: string)
    ensures var name := p + "-" + stem + ".md";
      && |name| == |p| + |stem| + 4
      && name[..|p|] == p && name[|p|] == '-'
      && name[|p| + 1..|p| + 1 + |stem|] == stem
      && name[|name| - 3..] == ".md"
  {
    var name := p + "-" + stem + ".md";
    assert name[..|p|] == p;
    assert name[|p| + 1..|p| + 1 + |stem|] == stem;
    assert name[|name| - 3..] == ".md";
  }

  /** Decimal value of a digit string; the inverse of the zero-padded spelling. */
  function DigitsValue(s: string): nat
    requires AllDigits(s)
  {
    if |s| == 0 then 0 else DigitsValue(s[..|s| - 1]) * 10 + DigitValue(s[|s| - 1])
  }

  /** Reads a `YYYY-MM-DD` prefix back into a date. */
  function ParseDatePrefix(s: string): Option<Date> {
    if |s| == 10 && s[4] == '-' && s[7] == '-'
       && AllDigits(s[..4]) && AllDigits(s[5..7]) && AllDigits(s[8..])
    then Some(Date(DigitsValue(s[..4]), DigitsValue(s[5..7]), DigitsValue(s[8..])))
    else None
  }

  /** Reads `<date>-<stem>.md` back into its date and stem. */
  function ParseOutputName(name: string): Option<(Date, string)> {
    if |name| >= 14 && name[10] == '-' && name[|name| - 3..] == ".md" then
      match ParseDatePrefix(name[..10])
      case Some(d) => Some((d, name[11..|name| - 3]))
      case None => None
    else None
  }

  lemma {:induction false} DigitsValueOfDecimal(n: nat)
    ensures DigitsValue(DecimalDigits(n)) == n
    decreases n
  {
    var r := DecimalDigits(n);
    if n >= 10 {
      DigitsValueOfDecimal(n / 10);
      assert r[..|r| - 1] == DecimalDigits(n / 10);
    }
  }

  lemma {:induction false} ZerosValue(k: nat)
    ensures DigitsValue(Zeros(k)) == 0
    decreases k
  {
    if k > 0 {
      ZerosValue(k - 1);
    }
  }

  lemma {:induction false} DigitsValueIgnoresLeadingZeros(k: nat, t: string)
    requires AllDigits(t)
    ensures AllDigits(Zeros(k) + t)
    ensures DigitsValue(Zeros(k) + t) == DigitsValue(t)
    decreases |t|
  {
    var w := Zeros(k) + t;
    if |t| == 0 {
      assert w == Zeros(k);
      ZerosValue(k);
    } else {
      var u := t[..|t| - 1];
      assert AllDigits(u);
      assert w[..|w| - 1] == Zeros(k) + u;
      assert w[|w| - 1] == t[|t| - 1];
      DigitsValueIgnoresLeadingZeros(k, u);
    }
  }

  lemma {:induction false} DecimalDigitsShort(n: nat, k: nat, bound: nat)
    requires n < bound
    requires bound == Pow10(k)
    requires k >= 1
    ensures |DecimalDigits(n)| <= k
    decreases k
  {
    if n >= 10 {
      assert Pow10(1) == 10;
      assert k != 1;
      assert Pow10(k) == 10 * Pow10(k - 1);
      DecimalDigitsShort(n / 10, k - 1, Pow10(k - 1));
    }
  }

  function Pow10(k: nat): nat {
    if k == 0 then 1 else 10 * Pow10(k - 1)
  }

  /** A value below `10^width` spelled at `width` takes exactly `width` digits and reads back as itself. */
  lemma PaddedRoundTrip(n: nat, width: nat)
    requires 1 <= width
    requires n < Pow10(width)
    ensures |ZeroPad(n, width)| == width
    ensures AllDigits(ZeroPad(n, width))
    ensures DigitsValue(ZeroPad(n, width)) == n
  {
    var ds := DecimalDigits(n);
    DecimalDigitsShort(n, width, Pow10(width));
    DigitsValueOfDecimal(n);
    DigitsValueIgnoresLeadingZeros(width - |ds|, ds);
    if |ds| == width {
      assert Zeros(0) + ds == ds;
    }
  }

  /** The zero-padded parts of a date with a year in 0..9999 read back as that date. */
  lemma PaddedDateParses(d: Date)
    ensures ValidDate(d) && 0 <= d.year <= 9999 ==>
      var s := ZeroPad(d.year, 4) + "-" + ZeroPad(d.month, 2) + "-" + ZeroPad(d.day, 2);
      |s| == 10 && s[4] == '-' && s[7] == '-' && ParseDatePrefix(s) == Some(d)
  {
    if ValidDate(d) && 0 <= d.year <= 9999 {
      SmallPowers();
      PaddedRoundTrip(d.year, 4);
      PaddedRoundTrip(d.month, 2);
      PaddedRoundTrip(d.day, 2);
      DashedSlices(ZeroPad(d.year, 4), ZeroPad(d.month, 2), ZeroPad(d.day, 2));
    }
  }

  lemma SmallPowers()
    ensures Pow10(2) == 100 && Pow10(4) == 10000
  {
    assert Pow10(1) == 10;
    assert Pow10(3) == 1000;
  }

  lemma DashedSlices(y: string, m: string, dd: string)
    requires |y| == 4 && |m| == 2 && |dd| == 2
    ensures var s := y + "-" + m + "-" + dd;
      |s| == 10 && s[4] == '-' && s[7] == '-' && s[..4] == y && s[5..7] == m && s[8..] == dd
  {
  }
}

=== FILE: events.dfy ===
/**
 Image-reference rewriting over the markdown event stream (`map_img_ref`,
 src/mapper/mod.rs:16-83). The markdown tokenizer and the serialiser that
 turns events back into text are outside the model: the rewriter is the
 per-event map between them. Raw HTML is seen through an abstract fragment:
 the start tags it contains, with their attributes in document order.
 */
module Events {
  import opened Base
  import opened Paths

  /** How an inline link or image was written in the source text. */
  datatype LinkType =
    | Inline | Reference | ReferenceUnknown | Collapsed | CollapsedUnknown
    | Shortcut | ShortcutUnknown | Autolink | Email

  /** Container tags of the event stream; only images and links carry a destination. */
  datatype Tag =
    | Image(linkType: LinkType, url: string, title: string)
    | Link(linkType: LinkType, url: string, title: string)
    | Container(kind: string)

  datatype Attr = Attr(name: string, value: string)

  /** An HTML start tag with its attributes, or any other piece of the fragment. */
  datatype Node = Element(name: string, attrs: seq<Attr>) | Chars(text: string)

  /** A raw-HTML fragment as the HTML rewriter sees it; it may fail to parse. */
  datatype Fragment = Parsed(nodes: seq<Node>) | Unparseable(source: string)

  /** A markdown event: a container opens or closes, raw HTML, or any leaf (text, code, breaks, ...). */
  datatype Event = Start(tag: Tag) | End(tag: Tag) | Html(fragment: Fragment) | Leaf(kind: string)

  datatype MapError = BadPath(cause: PathError) | UnrenderableMarkup(source: string)

  /** First attribute whose name is `name` up to ASCII case, as HTML attribute lookup works. */
  function FindAttr(attrs: seq<Attr>, name: string): (r: Option<nat>)
    ensures r.Some? ==> r.value < |attrs| && ToLower(attrs[r.value].name) == name
    ensures forall j :: 0 <= j < |attrs| && (r.None? || j < r.value) ==> ToLower(attrs[j].name) != name
  {
    if |attrs| == 0 then None
    else if ToLower(attrs[0].name) == name then Some(0)
    else match FindAttr(attrs[1..], name)
      case None => None
      case Some(i) => Some(i + 1)
  }

  /** The `img[src]` selector: an `img` element that has a `src` attribute. */
  predicate IsImgWithSrc(n: Node) {
    n.Element? && ToLower(n.name) == "img" && FindAttr(n.attrs, "src").Some?
  }

  /** The `img[src]` handler (mod.rs:53-60): `src` gets `mapdir(src)`, nothing else changes. */
  function RewriteNode(imgdir: string, n: Node): (r: Result<Node, MapError>)
    ensures r.Ok? <==> NodeMappable(n)
    ensures r.Ok? ==> NodeRewritten(imgdir, n, r.value)
    ensures r.Err? ==> r.error == BadPath(NoFileName(n.attrs[FindAttr(n.attrs, "src").value].value))
  {
    if IsImgWithSrc(n) then
      var i := FindAttr(n.attrs, "src").value;
      match MapDir(imgdir, n.attrs[i].value)
      case Err(e) => Err(BadPath(e))
      case Ok(v) => Ok(Element(n.name, n.attrs[i := Attr(n.attrs[i].name, v)]))
    else Ok(n)
  }

  function RewriteNodes(imgdir: string, ns: seq<Node>): Result<seq<Node>, MapError> {
    if |ns| == 0 then Ok([])
    else
      match RewriteNode(imgdir, ns[0])
      case Err(e) => Err(e)
      case Ok(n) =>
        match RewriteNodes(imgdir, ns[1..])
        case Err(e) => Err(e)
        case Ok(rest) => Ok([n] + rest)
  }

  /** `maptag!` (mod.rs:29-45): an image gets its destination mapped; every other tag is kept. */
  function MapTag(imgdir: string, t: Tag): (r: Result<Tag, MapError>)
    ensures r.Ok? <==> TagMappable(t)
    ensures r.Ok? ==> TagRewritten(imgdir, t, r.value)
    ensures r.Err? ==> r.error == BadPath(NoFileName(t.url))
  {
    match t
    case Image(lt, url, title) =>
      (match MapDir(imgdir, url)
       case Err(e) => Err(BadPath(e))
       case Ok(u) => Ok(Image(lt, u, title)))
    case _ => Ok(t)
  }

  /**
   The per-event map of mod.rs:52-77: it fails exactly on an unparseable
   fragment or an image path without a file name, and otherwise rewrites the
   event as `EventRewritten` allows.
   */
  function MapEvent(imgdir: string, e: Event): (r: Result<Event, MapError>)
    ensures r.Ok? <==> Mappable(e)
    ensures r.Ok? ==> EventRewritten(imgdir, e, r.value)
    ensures e.Html? && e.fragment.Unparseable? ==> r == Err(UnrenderableMarkup(e.fragment.source))
  {
    match e
    case Html(Unparseable(src)) => Err(UnrenderableMarkup(src))
    case Html(Parsed(ns)) =>
      RewriteNodesSpec(imgdir, ns);
      (match RewriteNodes(imgdir, ns)
       case Err(err) => Err(err)
       case Ok(ns') => Ok(Html(Parsed(ns'))))
    case Start(t) =>
      (match MapTag(imgdir, t)
       case Err(err) => Err(err)
       case Ok(t') => Ok(Start(t')))
    case End(t) =>
      (match MapTag(imgdir, t)
       case Err(err) => Err(err)
       case Ok(t') => Ok(End(t')))
    case Leaf(_) => Ok(e)
  }

  // ---------------------------------------------------------------------------
  // What a rewrite is allowed to do, stated independently of the functions above.

  /** A node the handler can process: not an `img[src]`, or one whose `src` has a file name. */
  predicate NodeMappable(n: Node) {
    IsImgWithSrc(n) ==> FileName(n.attrs[FindAttr(n.attrs, "src").value].value).Some?
  }

  /** `b` is `a` with at most the `src` of an `img[src]` moved into `imgdir`. */
  predicate NodeRewritten(imgdir: string, a: Node, b: Node) {
    if IsImgWithSrc(a) then
      var i := FindAttr(a.attrs, "src").value;
      && b.Element? && b.name == a.name && |b.attrs| == |a.attrs|
      && b.attrs[i].name == a.attrs[i].name
      && MapDir(imgdir, a.attrs[i].value) == Ok(b.attrs[i].value)
      && forall j :: 0 <= j < |a.attrs| && j != i ==> b.attrs[j] == a.attrs[j]
    else b == a
  }

  predicate TagMappable(t: Tag) {
    t.Image? ==> FileName(t.url).Some?
  }

  /** Images keep their link type and title and get the mapped destination; other tags stay. */
  predicate TagRewritten(imgdir: string, a: Tag, b: Tag) {
    if a.Image? then
      b.Image? && b.linkType == a.linkType && b.title == a.title && MapDir(imgdir, a.url) == Ok(b.url)
    else b == a
  }

  predicate Mappable(e: Event) {
    match e
    case Start(t) => TagMappable(t)
    case End(t) => TagMappable(t)
    case Html(f) => f.Parsed? && forall i :: 0 <= i < |f.nodes| ==> NodeMappable(f.nodes[i])
    case Leaf(_) => true
  }

  predicate EventRewritten(imgdir: string, a: Event, b: Event) {
    match a
    case Start(t) => b.Start? && TagRewritten(imgdir, t, b.tag)
    case End(t) => b.End? && TagRewritten(imgdir, t, b.tag)
    case Html(f) =>
      && f.Parsed? && b.Html? && b.fragment.Parsed? && |b.fragment.nodes| == |f.nodes|
      && forall i :: 0 <= i < |f.nodes| ==> NodeRewritten(imgdir, f.nodes[i], b.fragment.nodes[i])
    case Leaf(_) => b == a
  }

  /**
   `map_img_ref` up to serialisation: one output event per input event, in
   order; it fails exactly when some event holds an image path without a file
   name or an HTML fragment that cannot be parsed.
   */
  function MapEvents(imgdir: string, es: seq<Event>): (r: Result<seq<Event>, MapError>)
    ensures r.Ok? <==> forall i :: 0 <= i < |es| ==> Mappable(es[i])
    ensures r.Ok? ==> |r.value| == |es|
    ensures r.Ok? ==> forall i :: 0 <= i < |es| ==> EventRewritten(imgdir, es[i], r.value[i])
  {
    if |es| == 0 then Ok([])
    else
      match MapEvent(imgdir, es[0])
      case Err(err) => Err(err)
      case Ok(e) =>
        match MapEvents(imgdir, es[1..])
        case Err(err) =>
          UnmappableInTail(es);
          Err(err)
        case Ok(rest) =>
          PointwiseCons((a, b) => EventRewritten(imgdir, a, b), es, e, rest);
          Ok([e] + rest)
  }

  /** An event of the tail that cannot be rewritten is an event of the whole stream. */
  lemma UnmappableInTail(es: seq<Event>)
    requires |es| > 0
    requires exists k :: 0 <= k < |es[1..]| && !Mappable(es[1..][k])
    ensures exists i :: 1 <= i < |es| && !Mappable(es[i])
  {
    var k :| 0 <= k < |es[1..]| && !Mappable(es[1..][k]);
    assert es[1..][k] == es[k + 1];
  }

  /** A head related to `y` and a tail related index by index to `ys` relate the whole sequence to `[y] + ys`. */
  lemma PointwiseCons<A, B>(rel: (A, B) -> bool, xs: seq<A>, y: B, ys: seq<B>)
    requires |xs| > 0 && rel(xs[0], y)
    requires |ys| == |xs| - 1
    requires forall i :: 0 <= i < |xs[1..]| ==> rel(xs[1..][i], ys[i])
    ensures forall i :: 0 <= i < |xs| ==> rel(xs[i], ([y] + ys)[i])
  {
    forall i | 0 <= i < |xs|
      ensures rel(xs[i], ([y] + ys)[i])
    {
      if i > 0 {
        assert xs[i] == xs[1..][i - 1];
        assert ([y] + ys)[i] == ys[i - 1];
      }
    }
  }

  // ---------------------------------------------------------------------------
  // Proofs.

  lemma {:induction false} RewriteNodesSpec(imgdir: string, ns: seq<Node>)
    ensures RewriteNodes(imgdir, ns).Ok? <==> forall i :: 0 <= i < |ns| ==> NodeMappable(ns[i])
    ensures RewriteNodes(imgdir, ns).Ok? ==>
      var ns' := RewriteNodes(imgdir, ns).value;
      |ns'| == |ns| && forall i :: 0 <= i < |ns| ==> NodeRewritten(imgdir, ns[i], ns'[i])
    decreases |ns|
  {
    if |ns| > 0 {
      RewriteNodesSpec(imgdir, ns[1..]);
      assert forall i :: 1 <= i < |ns| ==> ns[i] == ns[1..][i - 1];
      if RewriteNodes(imgdir, ns).Err? && RewriteNode(imgdir, ns[0]).Ok? {
        var k :| 0 <= k < |ns[1..]| && !NodeMappable(ns[1..][k]);
        assert !NodeMappable(ns[k + 1]);
      }
    }
  }

  /** A rewritten node is processed again without change. */
  lemma RewriteNodeIdempotent(imgdir: string, a: Node, b: Node)
    requires NodeRewritten(imgdir, a, b)
    ensures RewriteNode(imgdir, b) == Ok(b)
  {
    if IsImgWithSrc(a) {
      var i := FindAttr(a.attrs, "src").value;
      assert IsImgWithSrc(b) && FindAttr(b.attrs, "src") == Some(i) by {
        FindAttrSameNames(a.attrs, b.attrs, "src");
      }
      var v := b.attrs[i].value;
      assert MapDir(imgdir, v) == Ok(v) by {
        MapDirIdempotent(imgdir, a.attrs[i].value);
      }
      RewriteAt(imgdir, b, i, v);
      assert b.attrs[i := Attr(b.attrs[i].name, v)] == b.attrs;
    }
  }

  lemma {:induction false} FindAttrSameNames(xs: seq<Attr>, ys: seq<Attr>, name: string)
    requires |xs| == |ys|
    requires forall j :: 0 <= j < |xs| ==> xs[j].name == ys[j].name
    ensures FindAttr(xs, name) == FindAttr(ys, name)
    decreases |xs|
  {
    if |xs| > 0 {
      FindAttrSameNames(xs[1..], ys[1..], name);
    }
  }

  lemma {:induction false} RewriteNodesFixed(imgdir: string, ns: seq<Node>, ns': seq<Node>)
    requires |ns'| == |ns|
    requires forall i :: 0 <= i < |ns| ==> NodeRewritten(imgdir, ns[i], ns'[i])
    ensures RewriteNodes(imgdir, ns') == Ok(ns')
    decreases |ns|
  {
    if |ns| > 0 {
      assert RewriteNode(imgdir, ns'[0]) == Ok(ns'[0]) by {
        RewriteNodeIdempotent(imgdir, ns[0], ns'[0]);
      }
      assert RewriteNodes(imgdir, ns'[1..]) == Ok(ns'[1..]) by {
        RewriteNodesFixed(imgdir, ns[1..], ns'[1..]);
      }
      assert [ns'[0]] + ns'[1..] == ns';
    }
  }

  lemma MapEventFixed(imgdir: string, a: Event, b: Event)
    requires EventRewritten(imgdir, a, b)
    ensures MapEvent(imgdir, b) == Ok(b)
  {
    match a
    case Start(t) =>
      if t.Image? { MapDirIdempotent(imgdir, t.url); }
    case End(t) =>
      if t.Image? { MapDirIdempotent(imgdir, t.url); }
    case Html(f) =>
      RewriteNodesFixed(imgdir, f.nodes, b.fragment.nodes);
    case Leaf(_) =>
  }

  lemma {:induction false} MapEventsFixed(imgdir: string, es: seq<Event>, out: seq<Event>)
    requires |out| == |es|
    requires forall i :: 0 <= i < |es| ==> EventRewritten(imgdir, es[i], out[i])
    ensures MapEvents(imgdir, out) == Ok(out)
    decreases |es|
  {
    if |es| > 0 {
      MapEventFixed(imgdir, es[0], out[0]);
      MapEventsFixed(imgdir, es[1..], out[1..]);
      assert [out[0]] + out[1..] == out;
    }
  }

  /** Rewriting an already rewritten stream changes nothing. */
  lemma MapEventsIdempotent(imgdir: string, es: seq<Event>)
    requires MapEvents(imgdir, es).Ok?
    ensures MapEvents(imgdir, MapEvents(imgdir, es).value) == MapEvents(imgdir, es)
  {
    MapEventsFixed(imgdir, es, MapEvents(imgdir, es).value);
  }

  /** The map works event by event: a stream splits into independently rewritten parts. */
  lemma {:induction false} MapEventsAppend(imgdir: string, a: seq<Event>, b: seq<Event>)
    ensures MapEvents(imgdir, a + b).Ok? <==> MapEvents(imgdir, a).Ok? && MapEvents(imgdir, b).Ok?
    ensures MapEvents(imgdir, a + b).Ok? ==>
      MapEvents(imgdir, a + b).value == MapEvents(imgdir, a).value + MapEvents(imgdir, b).value
    decreases |a|
  {
    if |a| == 0 {
      assert a + b == b;
    } else {
      assert (a + b)[1..] == a[1..] + b;
      assert (a + b)[0] == a[0];
      MapEventsAppend(imgdir, a[1..], b);
      if MapEvents(imgdir, a + b).Ok? {
        assert [MapEvent(imgdir, a[0]).value] + (MapEvents(imgdir, a[1..]).value + MapEvents(imgdir, b).value)
          == ([MapEvent(imgdir, a[0]).value] + MapEvents(imgdir, a[1..]).value) + MapEvents(imgdir, b).value;
      }
    }
  }

  /** An image element with its alt text: both image tags get the mapped destination, the alt text stays. */
  lemma ImageEventsRewritten(imgdir: string, lt: LinkType, url: string, title: string, alt: string)
    requires MapDir(imgdir, url).Ok?
    ensures var u := MapDir(imgdir, url).value;
      MapEvents(imgdir, [Start(Image(lt, url, title)), Leaf(alt), End(Image(lt, url, title))])
        == Ok([Start(Image(lt, u, title)), Leaf(alt), End(Image(lt, u, title))])
  {
    var u := MapDir(imgdir, url).value;
    var img, img' := Image(lt, url, title), Image(lt, u, title);
    ImageTagsMapped(imgdir, lt, url, title);
    MapThreeEvents(imgdir, Start(img), Leaf(alt), End(img), Start(img'), Leaf(alt), End(img'));
  }

  /** A three-event stream whose events each rewrite maps to the three rewrites. */
  lemma MapThreeEvents(imgdir: string, a: Event, b: Event, c: Event, a': Event, b': Event, c': Event)
    requires MapEvent(imgdir, a) == Ok(a') && MapEvent(imgdir, b) == Ok(b') && MapEvent(imgdir, c) == Ok(c')
    ensures MapEvents(imgdir, [a, b, c]) == Ok([a', b', c'])
  {
    assert MapEvents(imgdir, []) == Ok([]);
    MapEventsCons(imgdir, c, c', [], []);
    MapEventsCons(imgdir, b, b', [c] + [], [c'] + []);
    MapEventsCons(imgdir, a, a', [b] + ([c] + []), [b'] + ([c'] + []));
    ThreeOfNested(a, b, c);
    ThreeOfNested(a', b', c');
  }

  lemma ThreeOfNested<T>(a: T, b: T, c: T)
    ensures [a] + ([b] + ([c] + [])) == [a, b, c]
  {
  }

  /** Both tags of an image get the mapped destination. */
  lemma ImageTagsMapped(imgdir: string, lt: LinkType, url: string, title: string)
    requires MapDir(imgdir, url).Ok?
    ensures MapEvent(imgdir, Start(Image(lt, url, title))) == Ok(Start(Image(lt, MapDir(imgdir, url).value, title)))
    ensures MapEvent(imgdir, End(Image(lt, url, title))) == Ok(End(Image(lt, MapDir(imgdir, url).value, title)))
  {
  }

  /** One more event in front: its rewrite goes in front of the rest's rewrite. */
  lemma MapEventsCons(imgdir: string, e: Event, e': Event, rest: seq<Event>, rest': seq<Event>)
    requires MapEvent(imgdir, e) == Ok(e') && MapEvents(imgdir, rest) == Ok(rest')
    ensures MapEvents(imgdir, [e] + rest) == Ok([e'] + rest')
  {
    assert ([e] + rest)[1..] == rest;
  }

  /** `![alt](../images/foo.png "t")` becomes `![alt](/assets/img/foo.png "t")`. */
  lemma ImageExample()
    ensures var es := [Start(Image(Inline, "../images/foo.png", "t")), Leaf("alt"), End(Image(Inline, "../images/foo.png", "t"))];
      MapEvents("/assets/img", es)
        == Ok([Start(Image(Inline, "/assets/img/foo.png", "t")), Leaf("alt"), End(Image(Inline, "/assets/img/foo.png", "t"))])
  {
    MapDirExample();
    ImageEventsRewritten("/assets/img", Inline, "../images/foo.png", "t", "alt");
  }

  /** A matched element gets exactly its `src` value replaced. */
  lemma RewriteAt(imgdir: string, n: Node, i: nat, v: string)
    requires IsImgWithSrc(n) && FindAttr(n.attrs, "src") == Some(i)
    requires MapDir(imgdir, n.attrs[i].value) == Ok(v)
    ensures RewriteNode(imgdir, n) == Ok(Element(n.name, n.attrs[i := Attr(n.attrs[i].name, v)]))
  {
  }

  lemma ReplaceHead<T>(x: T, rest: seq<T>, y: T)
    ensures ([x] + rest)[0 := y] == [y] + rest
  {
  }

  lemma ImgWithSrcFirst(src: string, rest: seq<Attr>)
    ensures IsImgWithSrc(Element("img", [Attr("src", src)] + rest))
    ensures FindAttr([Attr("src", src)] + rest, "src") == Some(0)
  {
    ToLowerOfLowered("img");
    ToLowerOfLowered("src");
  }

  /** An `img` tag whose first attribute is `src`: only that value moves into `imgdir`. */
  lemma ImgNodeRewritten(imgdir: string, src: string, rest: seq<Attr>)
    requires MapDir(imgdir, src).Ok?
    ensures RewriteNode(imgdir, Element("img", [Attr("src", src)] + rest))
      == Ok(Element("img", [Attr("src", MapDir(imgdir, src).value)] + rest))
  {
    var attrs := [Attr("src", src)] + rest;
    ImgWithSrcFirst(src, rest);
    var v := MapDir(imgdir, src).value;
    RewriteAt(imgdir, Element("img", attrs), 0, v);
    ReplaceHead(Attr("src", src), rest, Attr("src", v));
  }

  /** A raw-HTML event holding one node is rewritten through that node. */
  lemma SingleNodeHtmlEvent(imgdir: string, n: Node, n': Node)
    requires RewriteNode(imgdir, n) == Ok(n')
    ensures MapEvents(imgdir, [Html(Parsed([n]))]) == Ok([Html(Parsed([n']))])
  {
    assert [n][1..] == [];
    assert RewriteNodes(imgdir, [n][1..]) == Ok([]);
    assert [n'] + [] == [n'];
    assert RewriteNodes(imgdir, [n]) == Ok([n']);
    var es := [Html(Parsed([n]))];
    assert es[1..] == [];
    assert MapEvents(imgdir, es[1..]) == Ok([]);
    assert MapEvent(imgdir, es[0]) == Ok(Html(Parsed([n'])));
    assert [Html(Parsed([n']))] + [] == [Html(Parsed([n']))];
  }

  /**
   `<img src="<dir>/<name>" ...>`, e.g. `<img src="../images/bar.jpg" alt="bar">`,
   gets `src="<imgdir>/<name>"` and keeps every other attribute.
   */
  lemma HtmlImageMoved(imgdir: string, dir: string, name: string, rest: seq<Attr>)
    requires |imgdir| > 0 && imgdir[|imgdir| - 1] != '/'
    requires |dir| > 0 && dir[|dir| - 1] == '/'
    requires IsNormalName(name)
    ensures MapEvents(imgdir, [Html(Parsed([Element("img", [Attr("src", dir + name)] + rest)]))])
      == Ok([Html(Parsed([Element("img", [Attr("src", imgdir + "/" + name)] + rest)]))])
  {
    FileNameAfterSeparator(dir, name);
    assert name[0] in name;
    assert MapDir(imgdir, dir + name) == Ok(imgdir + "/" + name);
    ImgNodeRewritten(imgdir, dir + name, rest);
    SingleNodeHtmlEvent(imgdir,
      Element("img", [Attr("src", dir + name)] + rest),
      Element("img", [Attr("src", imgdir + "/" + name)] + rest));
  }
}

=== FILE: front_matter.dfy ===
/**
 The default-dialect reader (src/reader/default.rs): locating the YAML
 front matter between two `---` tokens, deriving where the body starts, and
 normalising the deserialised header.

 The locator is an explicit search that reproduces the leftmost-first match of
 the pattern `.*---(?s)(.*?)---.*` (capture group 1). Offsets are character
 indices; the model assumes ASCII text, where they coincide with the byte
 offsets the source works with.
 */
module FrontMatter {
  import opened Base
  import opened Dates

  const Delim: string := "---"

  /** A `---` token starts at index `i` of `s`. */
  predicate DelimAt(s: string, i: int) {
    0 <= i && i + 3 <= |s| && s[i] == '-' && s[i + 1] == '-' && s[i + 2] == '-'
  }

  /** The half-open index range of the capture group. */
  datatype Range = Range(start: nat, end: nat)

  /** The first `---` that starts at or after `i`. */
  function FindFrom(s: string, i: nat): (r: Option<nat>)
    ensures r.Some? ==> i <= r.value && DelimAt(s, r.value)
    ensures forall k :: i <= k && (r.None? || k < r.value) ==> !DelimAt(s, k)
    decreases |s| - i
  {
    if i + 3 > |s| then None
    else if DelimAt(s, i) then Some(i)
    else FindFrom(s, i + 1)
  }

  /** Index of the first newline at or after `i`, or `|s|` when the line is the last one. */
  function LineEnd(s: string, i: nat): (e: nat)
    requires i <= |s|
    ensures i <= e <= |s|
    ensures forall k :: i <= k < e ==> s[k] != '\n'
    ensures e < |s| ==> s[e] == '\n'
    decreases |s| - i
  {
    if i == |s| || s[i] == '\n' then i else LineEnd(s, i + 1)
  }

  /** A `---` at `q` that could open the header: another `---` starts at `q + 3` or later. */
  predicate Opener(s: string, q: nat) {
    DelimAt(s, q) && FindFrom(s, q + 3).Some?
  }

  /** The rightmost opener in `[lo, hi)`. */
  function LastOpener(s: string, lo: nat, hi: nat): (r: Option<nat>)
    ensures r.Some? ==> lo <= r.value < hi && Opener(s, r.value)
    ensures forall q :: lo <= q < hi && (r.None? || r.value < q) ==> !Opener(s, q)
    decreases hi
  {
    if hi <= lo then None
    else if Opener(s, hi - 1) then Some(hi - 1)
    else LastOpener(s, lo, hi - 1)
  }

  /**
   `fetch_yaml_head` (default.rs:67-82): the header is captured on the first
   line holding a `---`; the greedy prefix takes the rightmost `---` on that line
   that still has a closer after it, and the lazy group stops at the first
   `---` after the opener.
   */
  function FetchYamlHead(s: string): (r: Option<Range>)
    ensures r.Some? ==> 3 <= r.value.start <= r.value.end && r.value.end + 3 <= |s|
    ensures r.Some? ==> s[r.value.start - 3..r.value.start] == Delim
    ensures r.Some? ==> s[r.value.end..r.value.end + 3] == Delim
    ensures r.Some? ==> forall k :: r.value.start <= k < r.value.end ==> !DelimAt(s, k)
    ensures (forall k :: 0 <= k < |s| ==> !DelimAt(s, k)) ==> r.None?
  {
    match FindFrom(s, 0)
    case None => None
    case Some(f) =>
      match LastOpener(s, f, LineEnd(s, f))
      case None => None
      case Some(q) => Some(Range(q + 3, FindFrom(s, q + 3).value))
  }

  // ---------------------------------------------------------------------------
  // Reference semantics of the pattern, independent of the search above.

  ghost predicate NoNewline(s: string, a: int, b: int) {
    0 <= a <= b <= |s| && forall k :: a <= k < b ==> s[k] != '\n'
  }

  /**
   The pattern matches from `p` with `.*` spanning `s[p..q]` (no newline, since
   `.` excludes it before `(?s)`), the opener at `q`, the capture `s[q+3..r]`
   and the closer at `r`; the trailing `(?s).*` always matches.
   */
  ghost predicate Candidate(s: string, p: int, q: int, r: int) {
    0 <= p <= q && q <= |s| && NoNewline(s, p, q) && DelimAt(s, q) && q + 3 <= r && DelimAt(s, r)
  }

  /**
   Leftmost-first match semantics: the earliest start, then the longest greedy
   prefix, then the shortest lazy capture.
   */
  ghost predicate RegexMatch(s: string, p: int, q: int, r: int) {
    && Candidate(s, p, q, r)
    && (forall p', q', r' :: p' < p ==> !Candidate(s, p', q', r'))
    && (forall q', r' :: q < q' ==> !Candidate(s, p, q', r'))
    && (forall r' :: r' < r ==> !Candidate(s, p, q, r'))
  }

  /** Start of the line holding index `i`. */
  ghost function LineStart(s: string, i: nat): (k: nat)
    requires i <= |s|
    ensures k <= i && NoNewline(s, k, i)
    ensures k > 0 ==> s[k - 1] == '\n'
  {
    if i == 0 || s[i - 1] == '\n' then i else LineStart(s, i - 1)
  }

  /**
   The locator agrees with the pattern: it finds nothing exactly when the
   pattern cannot match, and otherwise returns the capture of the
   leftmost-first match.
   */
  lemma FetchYamlHeadIsRegexMatch(s: string)
    ensures FetchYamlHead(s).None? <==> forall p, q, r :: !Candidate(s, p, q, r)
    ensures FetchYamlHead(s).Some? ==>
      var rg := FetchYamlHead(s).value;
      exists p, q :: q + 3 == rg.start && RegexMatch(s, p, q, rg.end)
  {
    match FindFrom(s, 0) {
    case None =>
      assert forall p, q, r :: !Candidate(s, p, q, r);
    case Some(f) =>
      match LastOpener(s, f, LineEnd(s, f)) {
      case None =>
        NoOpenerNoMatch(s, f);
      case Some(q) =>
        var r := FindFrom(s, q + 3).value;
        assert FetchYamlHead(s) == Some(Range(q + 3, r));
        OpenerMatches(s, f, q);
        assert Candidate(s, LineStart(s, f), q, r);
      }
    }
  }

  /** No opener on the first line holding a `---`: the pattern matches nowhere. */
  lemma NoOpenerNoMatch(s: string, f: nat)
    requires FindFrom(s, 0) == Some(f)
    requires LastOpener(s, f, LineEnd(s, f)).None?
    ensures forall p, q, r :: !Candidate(s, p, q, r)
  {
    assert f < LineEnd(s, f);
    assert !Opener(s, f);
    assert FindFrom(s, f + 3).None?;
    forall p, q, r | Candidate(s, p, q, r)
      ensures false
    {
    }
  }

  /** The rightmost opener on that line, with the first closer after it, is the leftmost-first match. */
  lemma OpenerMatches(s: string, f: nat, q: nat)
    requires FindFrom(s, 0) == Some(f)
    requires LastOpener(s, f, LineEnd(s, f)) == Some(q)
    ensures RegexMatch(s, LineStart(s, f), q, FindFrom(s, q + 3).value)
  {
    var e := LineEnd(s, f);
    var p := LineStart(s, f);
    var r := FindFrom(s, q + 3).value;
    assert Candidate(s, p, q, r);
    forall p', q', r' | p' < p
      ensures !Candidate(s, p', q', r')
    {
    }
    forall q', r' | q < q'
      ensures !Candidate(s, p, q', r')
    {
      if Candidate(s, p, q', r') && q' < e {
        assert FindFrom(s, q' + 3).Some?;
        assert Opener(s, q');
        assert false;
      }
    }
  }

  // ---------------------------------------------------------------------------
  // The reader (`DefaultReader::from_path`, default.rs:40-65).

  /** `tags` as the YAML gives it: one scalar or a list (`OneOrMany`, default.rs:30-31). */
  datatype TagsField = One(tag: string) | Many(tags: seq<string>)

  /** The header as the deserialiser produces it. */
  datatype RawHeader = RawHeader(title: Option<string>, date: Option<Date>, tags: TagsField)

  /** `DefaultYAMLHdr`: tags already normalised to a list. */
  datatype Header = Header(title: Option<string>, date: Option<Date>, tags: seq<string>)

  /** A read document: the optional header, the file stem, the raw text and where the body starts. */
  datatype Reader = Reader(yamlHdr: Option<Header>, nameStem: string, raw: string, textStart: nat)
  {
    predicate Valid() {
      textStart <= |raw|
    }

    /** The body, `raw[text_start..]`. */
    function Body(): string
      requires Valid()
    {
      raw[textStart..]
    }
  }

  /** Error from reading: the header block is present but not a valid header. */
  datatype ReadError = MalformedFrontMatter(message: string)

  /** A scalar becomes a one-element list; a list is kept as is, order and duplicates included. */
  function TagList(t: TagsField): (r: seq<string>)
    ensures t.One? ==> |r| == 1 && r[0] == t.tag
    ensures t.Many? ==> |r| == |t.tags| && forall i :: 0 <= i < |r| ==> r[i] == t.tags[i]
  {
    match t
    case One(s) => [s]
    case Many(l) => l
  }

  function ToHeader(h: RawHeader): Header {
    Header(h.title, h.date, TagList(h.tags))
  }

  /**
   `from_path` once the stem and text are known; `deserialize` stands for the
   YAML deserialiser, applied to the captured header text.
   */
  function ReadDocument(stem: string, raw: string, deserialize: string -> Result<RawHeader, string>)
    : (r: Result<Reader, ReadError>)
    ensures r.Ok? ==> r.value.Valid() && r.value.raw == raw && r.value.nameStem == stem
    ensures FetchYamlHead(raw).None? ==> r.Ok? && r.value.yamlHdr.None? && r.value.textStart == 0
    ensures FetchYamlHead(raw).Some? ==>
      var rg := FetchYamlHead(raw).value;
      match deserialize(raw[rg.start..rg.end])
      case Err(msg) => r == Err(MalformedFrontMatter(msg))
      case Ok(h) => r.Ok? && r.value.textStart == rg.end + 3
                    && r.value.yamlHdr == Some(Header(h.title, h.date, TagList(h.tags)))
  {
    match FetchYamlHead(raw)
    case None => Ok(Reader(None, stem, raw, 0))
    case Some(rg) =>
      match deserialize(raw[rg.start..rg.end])
      case Err(msg) => Err(MalformedFrontMatter(msg))
      case Ok(h) => Ok(Reader(Some(ToHeader(h)), stem, raw, rg.end + 3))
  }

  /** When a header is found the body begins right after its closing `---`, and the header text before that holds no `---`. */
  lemma BodyFollowsCloser(stem: string, raw: string, deserialize: string -> Result<RawHeader, string>)
    requires ReadDocument(stem, raw, deserialize).Ok?
    requires ReadDocument(stem, raw, deserialize).value.yamlHdr.Some?
    ensures var rd := ReadDocument(stem, raw, deserialize).value;
      rd.textStart >= 6 && raw[rd.textStart - 3..rd.textStart] == Delim
    ensures var rd := ReadDocument(stem, raw, deserialize).value;
      && FetchYamlHead(raw).Some? && FetchYamlHead(raw).value.end == rd.textStart - 3
      && forall k :: FetchYamlHead(raw).value.start <= k < rd.textStart - 3 ==> !DelimAt(raw, k)
  {
  }

  /** A text without any `---` has no header and its body is the whole text. */
  lemma NoDelimiterNoHeader(stem: string, raw: string, deserialize: string -> Result<RawHeader, string>)
    requires forall k :: 0 <= k < |raw| ==> !DelimAt(raw, k)
    ensures ReadDocument(stem, raw, deserialize) == Ok(Reader(None, stem, raw, 0))
  {
  }
}

=== FILE: jekyll.dfy ===
/**
 The Default-to-Jekyll conversion of one document (`map_default_to_jekyll`,
 src/mapper/jekyll.rs:131-213): read, rewrite image references, check the
 header, derive the post name, synthesise the Jekyll header, assemble the text.

 The YAML deserialiser and emitter, the markdown tokenizer and the markdown
 serialiser are foreign code; they are passed in as the `Foreign` record.
 */
module JekyllMapper {
  import opened Base
  import opened Dates
  import opened FrontMatter
  import opened Categories
  import opened Events
  import Paths

  /** A YAML value of the synthesised header. */
  datatype Value = Str(text: string) | Flag(flag: bool) | List(items: seq<Value>)

  /** An ordered YAML mapping, kept as its key/value pairs in insertion order. */
  type Mapping = seq<(string, Value)>

  /** The foreign collaborators of the conversion. */
  datatype Foreign = Foreign(
    deserialize: string -> Result<RawHeader, string>,
    tokenize: string -> seq<Event>,
    serialize: seq<Event> -> string,
    emit: Mapping -> string)

  /** The asset directory images are moved into (jekyll.rs:135). */
  const ImgDir: string := "/assets/img"

  /** Why a document is not converted. */
  datatype ConvError =
    | ReadFailed(read: ReadError)
    | RewriteFailed(rewrite: MapError)
    | MissingFrontMatter
    | MissingDate
    | MissingTitle
    | CategoryConflict(conflict: CatConflict)

  /** A synthesised post: its file name, header and (rewritten) body. */
  datatype Post = Post(fileName: string, header: Mapping, body: string)

  /** The keys of a mapping, in order. */
  function Keys(m: Mapping): (ks: seq<string>)
    ensures |ks| == |m|
    ensures forall i :: 0 <= i < |m| ==> ks[i] == m[i].0
  {
    seq(|m|, i requires 0 <= i < |m| => m[i].0)
  }

  /** The value stored under the first occurrence of `key`. */
  function Get(m: Mapping, key: string): (r: Option<Value>)
    ensures r.Some? ==> exists i :: 0 <= i < |m| && m[i] == (key, r.value)
    ensures r.None? ==> forall i :: 0 <= i < |m| ==> m[i].0 != key
  {
    if |m| == 0 then None
    else if m[0].0 == key then Some(m[0].1)
    else
      var r := Get(m[1..], key);
      if r.Some? then
        var i :| 0 <= i < |m[1..]| && m[1..][i] == (key, r.value);
        assert m[i + 1] == (key, r.value);
        r
      else r
  }

  const HeaderKeys: seq<string> := ["title", "date", "layout", "mathjax", "category"]

  /**
   The Jekyll header of jekyll.rs:171-203: exactly the five keys, in insertion
   order, each holding the value it was given.
   */
  function JekyllHeader(title: string, datePrefix: string, cats: seq<Cat>): (m: Mapping)
    ensures Keys(m) == HeaderKeys
    ensures Get(m, "title") == Some(Str(title))
    ensures Get(m, "date") == Some(Str(datePrefix))
    ensures Get(m, "layout") == Some(Str("post"))
    ensures Get(m, "mathjax") == Some(Flag(true))
    ensures Get(m, "category").Some? && Get(m, "category").value.List?
    ensures var items := Get(m, "category").value.items;
      |items| == |cats| && forall i :: 0 <= i < |cats| ==> items[i] == Str(CatName(cats[i]))
  {
    var items := CatItems(cats);
    FiveKeysOrder(Str(title), Str(datePrefix), Str("post"), Flag(true), List(items));
    FiveKeysGet(Str(title), Str(datePrefix), Str("post"), Flag(true), List(items));
    [ ("title", Str(title)),
      ("date", Str(datePrefix)),
      ("layout", Str("post")),
      ("mathjax", Flag(true)),
      ("category", List(items)) ]
  }

  /** The `category` list: each category under its lower-case name, in order. */
  function CatItems(cats: seq<Cat>): (items: seq<Value>)
    ensures |items| == |cats| && forall i :: 0 <= i < |cats| ==> items[i] == Str(CatName(cats[i]))
  {
    seq(|cats|, i requires 0 <= i < |cats| => Str(CatName(cats[i])))
  }

  /** A mapping with the five header keys lists them in insertion order. */
  lemma FiveKeysOrder(t: Value, d: Value, l: Value, x: Value, c: Value)
    ensures Keys([("title", t), ("date", d), ("layout", l), ("mathjax", x), ("category", c)]) == HeaderKeys
  {
    var ks := Keys([("title", t), ("date", d), ("layout", l), ("mathjax", x), ("category", c)]);
    assert ks[0] == "title" && ks[1] == "date" && ks[2] == "layout" && ks[3] == "mathjax" && ks[4] == "category";
  }

  /** In a mapping with the five header keys, each key finds the value inserted with it. */
  lemma FiveKeysGet(t: Value, d: Value, l: Value, x: Value, c: Value)
    ensures var m := [("title", t), ("date", d), ("layout", l), ("mathjax", x), ("category", c)];
      && Get(m, "title") == Some(t) && Get(m, "date") == Some(d) && Get(m, "layout") == Some(l)
      && Get(m, "mathjax") == Some(x) && Get(m, "category") == Some(c)
  {
    var m := [("title", t), ("date", d), ("layout", l), ("mathjax", x), ("category", c)];
    assert m[1..][0] == m[1] && m[1..][1..][0] == m[2];
    assert m[1..][1..][1..][0] == m[3] && m[1..][1..][1..][1..][0] == m[4];
  }

  /**
   The checks and the synthesis of jekyll.rs:138-203: missing header, then
   missing date, then missing title, then the category conflict; otherwise the
   post named `<date>-<stem>.md` with the five-key header.
   */
  function Synthesize(hdr: Option<Header>, stem: string, body: string): (r: Result<Post, ConvError>)
    ensures hdr.None? ==> r == Err(MissingFrontMatter)
    ensures hdr.Some? && hdr.value.date.None? ==> r == Err(MissingDate)
    ensures hdr.Some? && hdr.value.date.Some? && hdr.value.title.None? ==> r == Err(MissingTitle)
    ensures hdr.Some? && hdr.value.date.Some? && hdr.value.title.Some? ==>
      match MapTagsToCats(hdr.value.tags)
      case Err(e) => r == Err(CategoryConflict(e))
      case Ok(_) => r.Ok?
    ensures r.Ok? ==>
      && hdr.Some? && hdr.value.date.Some? && hdr.value.title.Some?
      && r.value.fileName == OutputName(hdr.value.date.value, stem)
      && r.value.body == body
      && Keys(r.value.header) == HeaderKeys
  {
    match hdr
    case None => Err(MissingFrontMatter)
    case Some(h) =>
      match h.date
      case None => Err(MissingDate)
      case Some(d) =>
        var prefix := DatePrefix(d);
        match h.title
        case None => Err(MissingTitle)
        case Some(title) =>
          match MapTagsToCats(h.tags)
          case Err(e) => Err(CategoryConflict(e))
          case Ok(cats) =>
            var header := JekyllHeader(title, prefix, cats);
            Ok(Post(OutputName(d, stem), header, body))
  }

  /** The written text: `---\n`, the emitted header, `---\n`, the body (jekyll.rs:208). */
  function PostText(yaml: string, body: string): (t: string)
    ensures |t| == 8 + |yaml| + |body|
    ensures t[..4] == "---\n" && t[4..4 + |yaml|] == yaml
    ensures t[4 + |yaml|..8 + |yaml|] == "---\n" && t[8 + |yaml|..] == body
  {
    "---\n" + yaml + "---\n" + body
  }

  /** What one conversion produces: the output path and the text written there. */
  datatype Output = Output(path: string, text: string)

  /**
   `map_default_to_jekyll` without the file-system calls: the reader, the
   image rewrite of the body (which comes before every header check), the
   synthesis, and the assembled text.
   */
  function ConvertDocument(outdir: string, stem: string, raw: string, f: Foreign)
    : (r: Result<Output, ConvError>)
    ensures ReadDocument(stem, raw, f.deserialize).Err? ==>
      r == Err(ReadFailed(ReadDocument(stem, raw, f.deserialize).error))
    ensures ReadDocument(stem, raw, f.deserialize).Ok? ==>
      var rd := ReadDocument(stem, raw, f.deserialize).value;
      MapEvents(ImgDir, f.tokenize(rd.Body())).Err? ==>
        r == Err(RewriteFailed(MapEvents(ImgDir, f.tokenize(rd.Body())).error))
    ensures ReadDocument(stem, raw, f.deserialize).Ok? ==>
      var rd := ReadDocument(stem, raw, f.deserialize).value;
      MapEvents(ImgDir, f.tokenize(rd.Body())).Ok? ==>
        var body := f.serialize(MapEvents(ImgDir, f.tokenize(rd.Body())).value);
        && (Synthesize(rd.yamlHdr, stem, body).Err? ==> r == Err(Synthesize(rd.yamlHdr, stem, body).error))
        && (Synthesize(rd.yamlHdr, stem, body).Ok? ==> r.Ok?)
    ensures r.Ok? ==>
      && ReadDocument(stem, raw, f.deserialize).Ok?
      && var rd := ReadDocument(stem, raw, f.deserialize).value;
      && MapEvents(ImgDir, f.tokenize(rd.Body())).Ok?
      && var body := f.serialize(MapEvents(ImgDir, f.tokenize(rd.Body())).value);
      && Synthesize(rd.yamlHdr, stem, body).Ok?
      && var post := Synthesize(rd.yamlHdr, stem, body).value;
      && r.value.path == Paths.Join(outdir, post.fileName)
      && r.value.text == PostText(f.emit(post.header), body)
  {
    match ReadDocument(stem, raw, f.deserialize)
    case Err(e) => Err(ReadFailed(e))
    case Ok(rd) =>
      match MapEvents(ImgDir, f.tokenize(rd.Body()))
      case Err(e) => Err(RewriteFailed(e))
      case Ok(events) =>
        var body := f.serialize(events);
        match Synthesize(rd.yamlHdr, stem, body)
        case Err(e) => Err(e)
        case Ok(post) => Ok(Output(Paths.Join(outdir, post.fileName), PostText(f.emit(post.header), body)))
  }

  // ---------------------------------------------------------------------------
  // Properties.

  /**
   The synthesised header reads back as the document's data: the verbatim
   title, a date string that parses to the header date, the constant layout and
   mathjax flag, and the single classified category under its lower-case name.
   */
  lemma {:induction false} HeaderReadsBack(hdr: Option<Header>, stem: string, body: string)
    requires Synthesize(hdr, stem, body).Ok?
    ensures var m := Synthesize(hdr, stem, body).value.header;
      && Get(m, "title") == Some(Str(hdr.value.title.value))
      && Get(m, "date").Some? && Get(m, "date").value.Str?
      && Get(m, "layout") == Some(Str("post"))
      && Get(m, "mathjax") == Some(Flag(true))
      && Get(m, "category").Some? && Get(m, "category").value.List?
      && |Get(m, "category").value.items| == 1
      && Get(m, "category").value.items[0].Str?
      && ParseCatName(Get(m, "category").value.items[0].text) == Some(MapTagsToCats(hdr.value.tags).value[0])
    ensures var m := Synthesize(hdr, stem, body).value.header;
      var d := hdr.value.date.value;
      0 <= d.year <= 9999 && ValidDate(d) ==> ParseDatePrefix(Get(m, "date").value.text) == Some(d)
  {
    var h := hdr.value;
    SynthesizedHeader(hdr, stem, body);
    CatNameRoundTrip(MapTagsToCats(h.tags).value[0]);
  }

  /** A synthesised post carries the header built from the title, the date prefix and the categories. */
  lemma SynthesizedHeader(hdr: Option<Header>, stem: string, body: string)
    requires Synthesize(hdr, stem, body).Ok?
    ensures hdr.Some? && hdr.value.date.Some? && hdr.value.title.Some? && MapTagsToCats(hdr.value.tags).Ok?
    ensures Synthesize(hdr, stem, body).value.header
      == JekyllHeader(hdr.value.title.value, DatePrefix(hdr.value.date.value), MapTagsToCats(hdr.value.tags).value)
  {
  }

  /** A document without any `---` whose body rewrites cleanly is reported as missing its front matter. */
  lemma NoFrontMatterReported(outdir: string, stem: string, raw: string, f: Foreign)
    requires forall k :: 0 <= k < |raw| ==> !DelimAt(raw, k)
    requires MapEvents(ImgDir, f.tokenize(raw)).Ok?
    ensures ConvertDocument(outdir, stem, raw, f) == Err(MissingFrontMatter)
  {
    NoDelimiterNoHeader(stem, raw, f.deserialize);
    assert raw[0..] == raw;
  }

  /** A well-formed header without `date` is reported as such, whatever the title and tags. */
  lemma MissingDateReported(outdir: string, stem: string, raw: string, f: Foreign)
    requires ReadDocument(stem, raw, f.deserialize).Ok?
    requires ReadDocument(stem, raw, f.deserialize).value.yamlHdr.Some?
    requires ReadDocument(stem, raw, f.deserialize).value.yamlHdr.value.date.None?
    requires MapEvents(ImgDir, f.tokenize(ReadDocument(stem, raw, f.deserialize).value.Body())).Ok?
    ensures ConvertDocument(outdir, stem, raw, f) == Err(MissingDate)
  {
  }

  /**
   The post is written under `outdir` as `<date>-<stem>.md`; for a valid date
   with a year in 0..9999 that name splits back into date and stem.
   */
  lemma OutputPathSpec(outdir: string, stem: string, raw: string, f: Foreign)
    requires ConvertDocument(outdir, stem, raw, f).Ok?
    ensures var rd := ReadDocument(stem, raw, f.deserialize).value;
      var d := rd.yamlHdr.value.date.value;
      ConvertDocument(outdir, stem, raw, f).value.path == Paths.Join(outdir, OutputName(d, stem))
    ensures var rd := ReadDocument(stem, raw, f.deserialize).value;
      var d := rd.yamlHdr.value.date.value;
      ValidDate(d) && 0 <= d.year <= 9999 ==> ParseOutputName(OutputName(d, stem)) == Some((d, stem))
  {
  }

  /**
   The written text is again a document with front matter: when the emitted
   header holds no `---` and ends its last line, the reader recovers the header
   text (after the opening line break) and a body of one line break followed by
   the converted body.
   */
  lemma {:induction false} PostTextReadsBack(yaml: string, body: string)
    requires forall k :: 0 <= k < |yaml| ==> !DelimAt(yaml, k)
    requires |yaml| == 0 || yaml[|yaml| - 1] == '\n'
    ensures var t := PostText(yaml, body);
      && FetchYamlHead(t) == Some(Range(3, 4 + |yaml|))
      && t[3..4 + |yaml|] == "\n" + yaml
      && t[7 + |yaml|..] == "\n" + body
  {
    PostTextFound(yaml, body);
    PostTextParts(yaml, body);
  }

  /** The locator finds the emitted header between the written opener and closer. */
  lemma {:induction false} PostTextFound(yaml: string, body: string)
    requires forall k :: 0 <= k < |yaml| ==> !DelimAt(yaml, k)
    requires |yaml| == 0 || yaml[|yaml| - 1] == '\n'
    ensures FetchYamlHead(PostText(yaml, body)) == Some(Range(3, 4 + |yaml|))
  {
    var t := PostText(yaml, body);
    PostTextOpener(yaml, body);
    PostTextCloser(yaml, body);
    assert LastOpener(t, 0, 3) == Some(0) by {
      assert Opener(t, 0);
    }
  }

  lemma PostTextParts(yaml: string, body: string)
    ensures var t := PostText(yaml, body);
      t[3..4 + |yaml|] == "\n" + yaml && t[7 + |yaml|..] == "\n" + body
  {
    var t := PostText(yaml, body);
    assert t[3..4 + |yaml|] == [t[3]] + t[4..4 + |yaml|];
    assert t[7 + |yaml|..] == [t[7 + |yaml|]] + t[8 + |yaml|..];
  }

  /** The first `---` after the opener is the closing line. */
  lemma PostTextCloser(yaml: string, body: string)
    requires forall k :: 0 <= k < |yaml| ==> !DelimAt(yaml, k)
    requires |yaml| == 0 || yaml[|yaml| - 1] == '\n'
    ensures FindFrom(PostText(yaml, body), 3) == Some(4 + |yaml|)
  {
    PostTextHeaderClear(yaml, body);
    assert DelimAt(PostText(yaml, body), 4 + |yaml|);
  }

  /** The written text opens with `---` on a line of its own. */
  lemma PostTextOpener(yaml: string, body: string)
    ensures var t := PostText(yaml, body);
      && FindFrom(t, 0) == Some(0) && LineEnd(t, 0) == 3
      && !DelimAt(t, 1) && !DelimAt(t, 2)
  {
    var t := PostText(yaml, body);
    assert t[..4] == "---\n";
    assert t[0] == '-' && t[1] == '-' && t[2] == '-' && t[3] == '\n';
    assert LineEnd(t, 3) == 3;
  }

  /** Between the opening line break and the closer the written text holds no `---`. */
  lemma PostTextHeaderClear(yaml: string, body: string)
    requires forall k :: 0 <= k < |yaml| ==> !DelimAt(yaml, k)
    requires |yaml| == 0 || yaml[|yaml| - 1] == '\n'
    ensures var t := PostText(yaml, body);
      forall k :: 3 <= k < 4 + |yaml| ==> !DelimAt(t, k)
  {
    var t := PostText(yaml, body);
    var n := |yaml|;
    assert t[..4] == "---\n";
    assert t[3] == '\n';
    forall k | 4 <= k < 4 + n
      ensures !DelimAt(t, k)
    {
      assert t[k] == yaml[k - 4];
      if k + 3 <= 4 + n {
        assert t[k + 1] == yaml[k - 3] && t[k + 2] == yaml[k - 2];
        assert !DelimAt(yaml, k - 4);
      } else {
        assert t[3 + n] == yaml[n - 1];
      }
    }
  }
}

=== FILE: paths.dfy ===
/**
 The slice of `std::path` the image rewriter relies on, for `/`-separated
 paths: the last-component `file_name`, `join`, and the `mapdir` macro of
 src/mapper/mod.rs that moves a file into the asset directory.
 */
module Paths {
  import opened Base

  /** A component that `file_name` can return: non-empty, no separator, not `.` or `..`. */
  predicate IsNormalName(n: string) {
    |n| > 0 && '/' !in n && n != "." && n != ".."
  }

  /** The pieces of `p` between separators, always at least one (possibly empty) piece. */
  function Segments(p: string): (r: seq<string>)
    ensures |r| >= 1
    ensures forall i :: 0 <= i < |r| ==> '/' !in r[i]
  {
    if |p| == 0 then [""]
    else if p[|p| - 1] == '/' then Segments(p[..|p| - 1]) + [""]
    else
      var s := Segments(p[..|p| - 1]);
      s[..|s| - 1] + [s[|s| - 1] + [p[|p| - 1]]]
  }

  /** The pieces put back together with `/` between them; the inverse of `Segments`. */
  function Unsplit(segs: seq<string>): string
    requires |segs| >= 1
  {
    if |segs| == 1 then segs[0] else Unsplit(segs[..|segs| - 1]) + "/" + segs[|segs| - 1]
  }

  /** A piece `Path::components` never reports: empty (from `//` or an edge `/`) or `.`. */
  predicate Dropped(piece: string) {
    piece == "" || piece == "."
  }

  /** Piece `i` is the last piece that is not dropped. */
  predicate LastKeptAt(segs: seq<string>, i: int) {
    && 0 <= i < |segs| && !Dropped(segs[i])
    && forall j :: i < j < |segs| ==> Dropped(segs[j])
  }

  /** Drops the empty and `.` pieces, which `Path::components` never reports as names. */
  function Keep(segs: seq<string>): (r: seq<string>)
    ensures forall i :: 0 <= i < |r| ==> !Dropped(r[i])
  {
    if |segs| == 0 then []
    else
      var last := segs[|segs| - 1];
      Keep(segs[..|segs| - 1]) + (if last == "" || last == "." then [] else [last])
  }

  /** `Path::file_name`: the last component, unless there is none or it is `..`. */
  function FileName(p: string): (r: Option<string>)
    ensures r.Some? ==> IsNormalName(r.value)
    ensures r.Some? ==> exists i :: LastKeptAt(Segments(p), i) && Segments(p)[i] == r.value
    ensures r.None? <==>
      || (forall i :: 0 <= i < |Segments(p)| ==> Dropped(Segments(p)[i]))
      || (exists i :: LastKeptAt(Segments(p), i) && Segments(p)[i] == "..")
  {
    var segs := Segments(p);
    var cs := Keep(segs);  // the names `Path::components` reports
    KeepSpec(segs);
    if |cs| == 0 then None
    else
      var last := cs[|cs| - 1];
      var i :| LastKeptAt(segs, i) && last == segs[i];
      LastKeptUnique(segs, i);
      if last == ".." then None else Some(last)
  }

  /**
   `PathBuf::join`: an absolute name replaces the base; otherwise the name is
   appended, after a separator only when the base is non-empty and lacks one.
   */
  function Join(dir: string, name: string): (r: string)
    ensures |name| > 0 && name[0] == '/' ==> r == name
    ensures |name| > 0 && name[0] != '/' ==> |r| >= |name| && r[|r| - |name|..] == name
    ensures |name| > 0 && name[0] != '/' && |dir| == 0 ==> r == name
    ensures |name| > 0 && name[0] != '/' && |dir| > 0 ==>
      && |r| == |dir| + |name| + (if dir[|dir| - 1] == '/' then 0 else 1)
      && r[..|dir|] == dir && r[|r| - |name| - 1] == '/'
  {
    if |name| > 0 && name[0] == '/' then name
    else if |dir| == 0 then name
    else if dir[|dir| - 1] == '/' then dir + name
    else dir + "/" + name
  }

  datatype PathError = NoFileName(path: string)

  /**
   `mapdir!` (mod.rs:19-28): the image's file name placed in `imgdir`; a path
   without a file name is the `unwrap` failure, reported as an error here.
   */
  function MapDir(imgdir: string, src: string): (r: Result<string, PathError>)
    ensures r.Err? <==> FileName(src).None?
    ensures r.Err? ==> r.error == NoFileName(src)
    ensures r.Ok? ==> FileName(r.value) == FileName(src)
    ensures r.Ok? && |imgdir| > 0 && imgdir[|imgdir| - 1] != '/' ==> r.value == imgdir + "/" + FileName(src).value
    ensures r.Ok? && |imgdir| > 0 && imgdir[|imgdir| - 1] == '/' ==> r.value == imgdir + FileName(src).value
    ensures r.Ok? && |imgdir| == 0 ==> r.value == FileName(src).value
  {
    match FileName(src)
    case None => Err(NoFileName(src))
    case Some(n) =>
      FileNameOfJoin(imgdir, n);
      Ok(Join(imgdir, n))
  }

  /** Splitting loses nothing: the pieces joined with `/` give the path back. */
  lemma {:induction false} SegmentsUnsplit(p: string)
    ensures Unsplit(Segments(p)) == p
    decreases |p|
  {
    if |p| > 0 {
      var q := p[..|p| - 1];
      SegmentsUnsplit(q);
      assert p == q + [p[|p| - 1]];
      if p[|p| - 1] == '/' {
        UnsplitSeparator(q);
      } else {
        UnsplitChar(q, p[|p| - 1]);
      }
    }
  }

  lemma UnsplitSeparator(q: string)
    requires Unsplit(Segments(q)) == q
    ensures Unsplit(Segments(q + "/")) == q + "/"
  {
    var p := q + "/";
    assert p[..|p| - 1] == q;
    var r := Segments(p);
    assert r[..|r| - 1] == Segments(q);
  }

  lemma UnsplitChar(q: string, c: char)
    requires c != '/'
    requires Unsplit(Segments(q)) == q
    ensures Unsplit(Segments(q + [c])) == q + [c]
  {
    var s := Segments(q);
    SegmentsSnoc(q, c);
    var r := Segments(q + [c]);
    assert r[..|r| - 1] == s[..|s| - 1];
    if |s| > 1 {
      assert Unsplit(s) == Unsplit(s[..|s| - 1]) + "/" + s[|s| - 1];
    }
  }

  /** `Keep` has no name exactly when every piece is dropped, and otherwise ends with the last kept piece. */
  lemma {:induction false} KeepSpec(segs: seq<string>)
    ensures |Keep(segs)| == 0 <==> forall i :: 0 <= i < |segs| ==> Dropped(segs[i])
    ensures |Keep(segs)| > 0 ==> exists i :: LastKeptAt(segs, i) && Keep(segs)[|Keep(segs)| - 1] == segs[i]
  {
    KeepEmpty(segs);
    KeepEndsWithLastKept(segs);
  }

  lemma {:induction false} KeepEmpty(segs: seq<string>)
    ensures |Keep(segs)| == 0 <==> forall i :: 0 <= i < |segs| ==> Dropped(segs[i])
    decreases |segs|
  {
    if |segs| > 0 {
      var n := |segs| - 1;
      KeepEmpty(segs[..n]);
      assert forall i :: 0 <= i < n ==> segs[..n][i] == segs[i];
    }
  }

  lemma {:induction false} KeepEndsWithLastKept(segs: seq<string>)
    ensures |Keep(segs)| > 0 ==> exists i :: LastKeptAt(segs, i) && Keep(segs)[|Keep(segs)| - 1] == segs[i]
    decreases |segs|
  {
    if |segs| > 0 {
      var n := |segs| - 1;
      var init := segs[..n];
      if Dropped(segs[n]) {
        KeepEndsWithLastKept(init);
        assert Keep(segs) == Keep(init);
        if |Keep(init)| > 0 {
          var i :| LastKeptAt(init, i) && Keep(init)[|Keep(init)| - 1] == init[i];
          assert LastKeptAt(segs, i) by {
            assert forall j :: 0 <= j < n ==> init[j] == segs[j];
          }
        }
      } else {
        assert LastKeptAt(segs, n);
      }
    }
  }

  /** At most one piece is the last kept one. */
  lemma LastKeptUnique(segs: seq<string>, i: int)
    requires LastKeptAt(segs, i)
    ensures forall j :: LastKeptAt(segs, j) ==> j == i
  {
  }

  lemma {:induction false} SegmentsAppend(a: string, b: string)
    requires '/' !in b
    ensures var sa := Segments(a);
      Segments(a + b) == sa[..|sa| - 1] + [sa[|sa| - 1] + b]
    decreases |b|
  {
    var sa := Segments(a);
    if |b| == 0 {
      assert a + b == a;
      assert sa[|sa| - 1] + b == sa[|sa| - 1];
      assert sa[..|sa| - 1] + [sa[|sa| - 1]] == sa;
    } else {
      var b', c := b[..|b| - 1], b[|b| - 1];
      assert c != '/' by { assert c in b; }
      assert b == b' + [c];
      assert a + b == (a + b') + [c];
      SegmentsAppend(a, b');
      SegmentsSnoc(a + b', c);
      assert (sa[|sa| - 1] + b') + [c] == sa[|sa| - 1] + b;
    }
  }

  /** One more non-separator character extends the last piece. */
  lemma SegmentsSnoc(p: string, c: char)
    requires c != '/'
    ensures var s := Segments(p);
      Segments(p + [c]) == s[..|s| - 1] + [s[|s| - 1] + [c]]
  {
    var w := p + [c];
    assert w[..|w| - 1] == p;
  }

  lemma KeepLast(segs: seq<string>)
    requires |segs| > 0
    requires segs[|segs| - 1] != "" && segs[|segs| - 1] != "."
    ensures |Keep(segs)| > 0 && Keep(segs)[|Keep(segs)| - 1] == segs[|segs| - 1]
  {
  }

  /** The joined path's file name is the name that was joined. */
  lemma FileNameOfJoin(dir: string, name: string)
    requires IsNormalName(name)
    ensures FileName(Join(dir, name)) == Some(name)
  {
    var j := Join(dir, name);
    var base := if |dir| == 0 then "" else if dir[|dir| - 1] == '/' then dir else dir + "/";
    assert j == base + name;
    SegmentsAppend(base, name);
    var sb := Segments(base);
    assert sb[|sb| - 1] == "" by {
      if |base| > 0 {
        assert base[|base| - 1] == '/';
      }
    }
    assert "" + name == name;
    KeepLast(Segments(j));
  }

  /** Rewriting a path twice is the same as rewriting it once. */
  lemma MapDirIdempotent(imgdir: string, src: string)
    requires MapDir(imgdir, src).Ok?
    ensures MapDir(imgdir, MapDir(imgdir, src).value) == MapDir(imgdir, src)
  {
  }

  /** A path ending in a normal name after a separator has that name as its file name. */
  lemma FileNameAfterSeparator(dir: string, name: string)
    requires |dir| > 0 && dir[|dir| - 1] == '/'
    requires IsNormalName(name)
    ensures FileName(dir + name) == Some(name)
  {
    FileNameOfJoin(dir, name);
  }

  /** The relative image path `../images/foo.png` lands at `/assets/img/foo.png`. */
  lemma MapDirExample()
    ensures MapDir("/assets/img", "../images/foo.png") == Ok("/assets/img/foo.png")
  {
    FileNameAfterSeparator("../images/", "foo.png");
    assert "../images/foo.png" == "../images/" + "foo.png";
    assert "/assets/img" + "/" + "foo.png" == "/assets/img/foo.png";
  }

  /** A path ending in `..` has no file name, whatever comes before it. */
  lemma ParentHasNoFileName(dir: string)
    ensures FileName(dir + "/..").None?
  {
    var base := dir + "/";
    SegmentsAppend(base, "..");
    assert base[..|base| - 1] == dir;
    var sb := Segments(base);
    assert sb[|sb| - 1] == "";
    var segs := Segments(dir + "/..");
    assert base + ".." == dir + "/..";
    assert segs[|segs| - 1] == "" + "..";
    assert LastKeptAt(segs, |segs| - 1);
  }

  /** The empty path has no file name. */
  lemma EmptyHasNoFileName()
    ensures FileName("").None?
  {
    assert Segments("") == [""];
    assert Dropped(Segments("")[0]);
  }
}
